=== FILE: README.md ===
# ESIM-Inventario lending core, modelled in Dafny

ESIM-Inventario is a school's equipment-lending system. It manages items such
as notebooks, tablets and extension cords, loans ("préstamos") and
reservations ("reservas"). It also has a chat booking assistant, a periodic
sweeper, web forms and a Discord bot. This project models the part of it
that writes to the inventory:

- The entity transitions of `Prestamo` and `Reserva`:
  - the Superior-means-night rule applied on save;
  - closing a loan, with the duration rounded to hundredths of an hour;
  - expire, cancel, and approve-and-convert.
- `chat_api`:
  - the priority ladder of intents;
  - the per-user pending intent (reserve or return);
  - the completion cursor (level, then programme and year for Superior, then classroom);
  - the confirmation re-checks;
  - the text parsers it uses.
- The `expire_reservas` sweeper:
  - pass 1 expires overdue reservations;
  - pass 2 cancels every reservation still active from 23:00 on.
- The quick-loan, return and sign-up forms:
  - sign-up checks the join code for the chosen level and assigns the permission group.
- The store helpers behind the Discord bot:
  - reserve the first available item of a kind;
  - start a loan by code;
  - hand an item back.

The database is a `Store` of three sequences: items, loans and reservations.
An id is an index into its sequence. Every operation is a pure function from
a store (and, for the chat, a session) to a new store. `System.Apply` and
`System.Run` put all entry points together, and the invariant `Inv` is proved
to hold along any sequence of operations. `Inv` says:

- every loan has the shape `save`/`cerrar` leave it in;
- every reservation has the shape its transitions leave it in;
- every open loan holds its item in use;
- no item has two open loans.

Time is whole seconds on the local clock. Text is a sequence of characters.

## Model

| member | source | states |
|---|---|---|
| Loans.Saved | core/models.py:65-69 | A Superior loan is stored in the night shift; any other loan is stored exactly as given; only the shift can ever change |
| Loans.Close | core/models.py:71-84 | Closing an open loan records the end, the duration rounded to hundredths of an hour and status "devuelto"; its item gains one use and that duration and becomes available; an already-closed loan leaves the store unchanged; no other loan or item changes |
| Loans.CloseIdempotent | core/models.py:71-73 | A second close, at any time, changes nothing, so the duration is fixed by the first close |
| Loans.CloseTwoHours | core/tests/test_models.py:5-16 | A loan closed two hours after it started lasts 2.00 hours, is "devuelto", and its item becomes available with one more use and 2.00 more hours |
| Reservations.Release | core/models.py:133-135 | The item of an ended reservation goes back to Available only if it is still Reserved; every other item, loan and reservation is untouched |
| Reservations.Expire | core/models.py:128-135 | Only an "activa" reservation changes; it becomes "expirada" and its item is released; a reservation in any other status leaves the store unchanged |
| Reservations.Cancel | core/models.py:137-147 | Only an "activa" reservation changes; it becomes "cancelada" with canceller, time and reason recorded, and its item is released |
| Reservations.ApproveAndConvert | core/models.py:149-168 | Refused with no change exactly when the reservation is not "activa", has no item, or its item is neither Reserved nor Available. Otherwise the reservation becomes "convertida" with approver and time, one loan is appended carrying its level, shift, classroom and requester, and only its item goes in use |
| Reservations.TerminalIsFinal | core/models.py:128-154 | A reservation that is no longer "activa" is left unchanged by expire, cancel and approve |
| Clock.Expiry2300 | core/views.py:255-260 | The expiry is 23:00 of the same day, or of the next day when it is already past 23:00; it is never earlier than now and less than a day after it |
| Clock.InferShiftWindows | core/views.py:262-271 | The suggested shift is morning exactly from 06:00 to 12:00 inclusive, afternoon exactly from 13:00 to 17:00 inclusive, and night at every other time |
| Clock.RoundHundredths | core/models.py:76 | The duration in hundredths of an hour lies within half a hundredth (18 s) of the exact span |
| Clock.RoundHundredthsExact | core/models.py:76 | An exact number of hundredths is reproduced by the rounding |
| Clock.RoundHundredthsMonotone | core/models.py:76 | A longer span never rounds to a shorter duration |
| ChatText.Norm | core/views.py:273-276 | A normalised message has no blank at either end, a blank being any character Python's `str.isspace` accepts (the next-line and no-break spaces included) |
| ChatText.NormSettled | core/views.py:273-276 | Every character of a normalised message is free of ASCII capitals and of Latin-1 accents, tildes, cedillas and diaereses |
| ChatText.NormIdempotent | core/views.py:273-299 | Normalising a normalised message changes nothing, so the answer parsers may normalise again what the chat already normalised |
| ChatText.ParseLevel | core/views.py:278-282 | Superior exactly when the normalised answer starts with "sup"; otherwise Personal exactly when it starts with "per" or mentions "docente"; anything else is Secundario |
| ChatText.ParseShift | core/views.py:284-289 | No shift exactly when the normalised answer starts with none of "man", "tar", "noc"; otherwise the shift whose prefix it starts with |
| ChatText.ParseCareer | core/views.py:291-295 | No programme exactly when the answer starts with neither "tcd" nor "pte" and does not mention "prof"; TCD exactly when it starts with "tcd" |
| ChatText.ParseYear | core/views.py:297-301 | No year exactly when the answer does not start with 1 or 2; otherwise the year whose digit it starts with |
| ChatText.LevelRoundTrip | core/views.py:431-435 | Each suggested level label, once normalised, is accepted by the level question and parses back to its own level |
| ChatText.ShiftRoundTrip | core/views.py:370-378 | Each shift word of the "cambiar a" hint, "mañana" with its tilde included, parses back to its own shift |
| ChatText.CareerRoundTrip | core/views.py:438-445 | Each suggested programme label parses back to its own programme |
| ChatText.YearRoundTrip | core/views.py:447-454 | Each suggested year label parses back to its own year |
| ChatText.ReturnMatchFrom | core/views.py:381 | With `\s` as Python's whitespace set: the position `re.search` finds: the pattern matches there and at no earlier position; none exactly when it matches nowhere |
| ChatText.ReserveMatchFrom | core/views.py:396 | With `\s` as Python's whitespace set: the position `re.search` finds: the pattern matches there and at no earlier position; none exactly when it matches nowhere |
| ChatText.ReturnCodeFrom | core/views.py:381 | A code is found exactly when the pattern matches at some position; the code returned is the one at the leftmost matching position |
| ChatText.ReserveCodeFrom | core/views.py:396 | A code is found exactly when the pattern matches at some position; the code returned is the one at the leftmost matching position |
| ChatText.ReserveCodeRoundTrip | core/views.py:396-398 | "reservar" followed by any non-empty run of blanks (no-break spaces included) and any code yields exactly that code |
| ChatText.NoBreakSpaceStripped | core/views.py:273-276 | "menu" followed by a no-break space normalises to "menu" |
| ChatText.ReturnCodeRoundTrip | core/views.py:381-383 | "devolver" followed by any non-empty run of blanks (no-break spaces included) and any code yields exactly that code |
| Queries.ItemByCode | core/forms.py:35-38 | The item with exactly this code, which is the only one; none when no item has it |
| Queries.ItemByCodeIgnoringCase | core/views.py:384-387 | The first item whose code equals the given one up to letter case; none when no item matches |
| Queries.FirstActiveReservationOf | core/views.py:363-365 | The user's "activa" reservation with the smallest id; none exactly when the user holds none |
| Queries.FirstOpenLoanOf | core/views.py:388-390 | The open loan of this item by this user with the smallest id; none when there is no such loan |
| Queries.LatestOpenLoanFor | core/forms.py:72-74 | The open loan of the item with this code that started last; none when the item has no open loan |
| Queries.LatestActiveReservationOn | core/management/commands/discord_bot.py:91 | The "activa" reservation of the item created last; none when it has none |
| Queries.LeastAvailableCode | core/management/commands/discord_bot.py:67-69 | The Available item of the kind whose code is least in code order; none when there is no such item |
| Chat.Step | core/views.py:329-523 | Every chat message leaves a store that is still well formed; what each rung does is stated by the ChatProps lemmas |
| Chat.RouteOf | core/views.py:337-523 | The rung a message reaches: completion only with an unfinished reserve intent; confirmation only for a confirmation word with something pending, and for a reserve intent only once it is complete; abort only for "no" and "cancel" |
| Chat.StageReturn | core/views.py:380-393 | Staging a return never writes the store |
| Chat.StageReserve | core/views.py:395-418 | Staging a reservation never writes the store |
| Chat.Complete | core/views.py:420-475 | Answering a completion question never writes the store |
| Chat.ConfirmReserve | core/views.py:478-506 | A confirmation of a reserve intent always clears the pending intent, whatever the outcome |
| Chat.ConfirmReturnOf | core/views.py:508-515 | A confirmation of a return always clears the pending intent, whatever the outcome |
| ChatProps.CompleteAdvances | core/views.py:420-475 | An answer either leaves the intent untouched or fills exactly the field the cursor points at, and the cursor moves strictly forward |
| ChatProps.ConfirmReserveLeavesOthersAlone | core/views.py:493-500 | Confirming a reservation keeps every loan and every existing reservation, only appends, and changes no item other than the one the appended reservation holds |
| ChatProps.CancelOwnLeavesOthersAlone | core/views.py:362-366 | The reservation the cancel rung picks is the user's own and does change; no other reservation changes, and no item other than the one it held |
| ChatProps.ConfirmReturnLeavesOthersAlone | core/views.py:508-515 | A confirmed return changes no reservation and no loan other than the staged one; when it changes anything, that loan is the user's and does change, and the only item that changes is the one it held |
| ChatProps.BareCancelKeepsPending | core/views.py:361-367 | A bare "cancelar" reaches the cancel rung before the abort rung. It cancels the user's active reservation with the smallest id exactly when there is one, records the user and the chat reason, and keeps any pending intent |
| ChatProps.PendingClearedOnlyByAnswer | core/views.py:477-520 | A pending intent disappears only on a confirmation word, "no" or "cancel" |
| ChatProps.StageReserveOutcome | core/views.py:395-418 | "reservar CODE" stages a fresh intent, with the clock's shift and every field unset, exactly when the user has no active reservation and the code names an Available item; otherwise the session stays as it was; the store never changes |
| ChatProps.CompletionAdvances | core/views.py:420-475 | During completion the store never changes, an intent stays pending, and each answer fills only the next missing field or changes nothing |
| ChatProps.CompletionAnswers | core/views.py:424-475 | The level question rejects exactly the messages that mention no level, the programme and year questions reject exactly what does not parse, and each accepted answer records the parsed value. The classroom is the stripped raw text, with "-" stored as empty, and the reply shows the completed intent |
| ChatProps.ChatCreatesReservationExactly | core/views.py:478-506 | The reservations table changes exactly when a confirmation meets a complete intent whose item is still Available and whose user has no active reservation. It then gains one "activa" reservation with the intent's fields, created now and expiring at the next 23:00; the item becomes Reserved, no other item and no loan changes |
| ChatProps.RefusedConfirmationChangesNothing | core/views.py:481-491 | A confirmation whose re-check fails, because the item is gone, no longer Available, or the user already holds an active reservation, clears the intent, creates nothing and leaves the store unchanged |
| ChatProps.FallbackKeepsSession | core/views.py:522-523 | A message no rung recognises gets the help reply and leaves the store and the pending intent untouched |
| ChatProps.ConfirmReturnClosesLoan | core/views.py:508-515 | A confirmed return closes the staged loan exactly when it is still the user's and open, recording end and duration and freeing the item; otherwise the store is unchanged; the intent is cleared either way |
| ChatProps.ChangeShiftOnlyShift | core/views.py:369-378 | "cambiar a X" changes only the pending intent's shift, and only when X names a shift; otherwise it replies with the hint; the store never changes |
| ChatProps.StoreChangesOnlyOnCancelOrConfirm | core/views.py:329-523 | A chat message that changes the store reached the cancel rung or a confirmation |
| ChatProps.StoreKeptOffCancelAndConfirm | core/views.py:329-523 | Every rung other than cancel and confirmation leaves the store as it was |
| ChatProps.ChatLeavesOthersAlone | core/views.py:329-523 | A chat message never changes another requester's loans or reservations, never adds a loan, only appends reservations, and changes only items held by a loan or reservation of the user that the message changed or created |
| ChatProps.ChatReservationSkipsNightRule | core/views.py:494-498 | A Superior reservation confirmed through the chat keeps the morning shift it carried; the night rule is applied only when it is converted into a loan |
| Sweeper.ExpirePass | core/management/commands/expire_reservas.py:11-15 | Pass 1 expires exactly the "activa" reservations whose expiry has passed, and frees exactly the Reserved items bound to them |
| Sweeper.CancelPass | core/management/commands/expire_reservas.py:17-23 | Pass 2 cancels every reservation still "activa" with no canceller and reason "Auto-cancel 23:00", and frees the Reserved items bound to them |
| Sweeper.Sweep | core/management/commands/expire_reservas.py:9-25 | The two passes give the order-independent reference result. No loan changes; every overdue reservation is expired; from 23:00 on none is left active; a reservation that was not active is untouched |
| Sweeper.SweepSpecEffects | core/management/commands/expire_reservas.py:9-23 | Overdue reservations expire; at closing time the rest are cancelled with the automatic reason; before closing time the others stay as they were; an item changes only from Reserved to Available |
| Sweeper.SweepIdempotent | core/management/commands/expire_reservas.py:9-23 | Sweeping twice at the same instant gives the same store as sweeping once |
| Forms.QuickLoanClean | core/forms.py:30-47 | Accepts exactly a non-empty code naming an Available item, with programme and year present for Superior, and returns that item; reports a missing code, then an unknown code, in source order |
| Forms.QuickLoanSave | core/forms.py:49-63 | Appends one open loan with no expected end through the save rule; only the chosen item changes, and it goes in use; reservations are untouched |
| Forms.ReturnCodeField | core/forms.py:66 | The field accepts exactly a typed value whose stripped form is non-empty and at most ten characters, and yields that stripped form; empty is reported missing and longer is reported too long |
| Forms.ReturnCodeFieldAcceptsPadded | core/forms.py:66 | A code of at most ten characters without blank ends is accepted as it is, bare or surrounded by any blanks |
| Forms.ReturnClean | core/forms.py:68-75 | Fails exactly when the code has no open loan; otherwise selects the open loan of that item that started last |
| Forms.ReturnSave | core/forms.py:77-79 | Closes exactly the selected loan now; its item is freed with one more use and the rounded duration added to its hours; no other loan, no other item and no reservation changes |
| Forms.SignupClean | core/forms.py:93-106 | Accepts exactly when the stripped join code is the one configured for the chosen level and, for Superior, programme and year are given; a wrong code is reported as such |
| Forms.SignupSave | core/forms.py:108-122 | The profile always takes the level, and programme and year only for Superior; the group is Superior-student, staff or secondary-student exactly according to the level |
| Forms.SignupAcceptsOwnCode | core/forms.py:96-101 | Each level's own code is accepted even when surrounded by blanks |
| Forms.DefaultSecondarySignup | config/settings.py:107-109 | With the default settings, a Secundario applicant typing "SEC-123" is accepted and joins the secondary-student group |
| Bot.GuessShift | core/management/commands/discord_bot.py:216-220 | Night exactly for Superior; anyone else gets the morning exactly before 13:00 |
| Bot.RequesterName | core/management/commands/discord_bot.py:99 | Only Secundario records a requester name: the full name, or the user name when that is blank |
| Bot.ReserveFirstAvailable | core/management/commands/discord_bot.py:65-80 | With no Available item of the kind nothing changes. Otherwise the Available item with the least code becomes Reserved, one "activa" reservation for it is appended, and nothing else changes |
| Bot.ReserveCommand | core/management/commands/discord_bot.py:222-243 | A successful /reservar appends a reservation that expires the chosen minutes from now, between 5 and 180 minutes; its shift is guessed from the level, and it records the linked Discord id or else the caller's |
| Bot.StartLoan | core/management/commands/discord_bot.py:82-107 | Refuses an unknown code, an item in use, or an item whose latest active reservation belongs to another Discord id, changing nothing. Otherwise that reservation, if any, becomes "convertida", one loan is appended and only the item goes in use |
| Bot.HandOver | core/management/commands/discord_bot.py:109-116 | Closes the open loan of the item that started last, or reports there is none and changes nothing |
| Bot.LendsItemUnderMaintenance | core/management/commands/discord_bot.py:88-89 | An item under maintenance with no active reservation is lent and goes in use |
| Bot.ChatReservationDoesNotBlockBot | core/management/commands/discord_bot.py:91-97 | A chat reservation carries no Discord id, so it never blocks a bot loan; the loan converts it |
| Invariants.CloseKeeps | core/models.py:71-84 | Closing a loan keeps the store invariant and only evolves the store |
| Invariants.ReleaseKeeps | core/models.py:133-135 | Releasing an item keeps the invariant |
| Invariants.ExpireKeeps | core/models.py:128-135 | Expiring keeps the invariant |
| Invariants.CancelKeeps | core/models.py:137-147 | Cancelling keeps the invariant |
| Invariants.NewLoanKeeps | core/forms.py:51-62 | Opening a loan on an item not in use, and putting the item in use, keeps the invariant: no other open loan can hold the item |
| Invariants.NewReservationKeeps | core/views.py:493-500 | Appending an "activa" reservation for an Available item and marking the item Reserved keeps the invariant |
| Invariants.ApproveKeeps | core/models.py:149-168 | Approve-and-convert keeps the invariant |
| System.QuickLoanViewRecordsUser | core/views.py:69-83 | A quick loan accepted by the page is recorded under the logged-in user, whatever name the form carried, and in the night shift for Superior |
| System.SweepKeeps | core/management/commands/expire_reservas.py:9-23 | The sweep keeps the invariant |
| System.ConfirmReserveKeeps | core/views.py:478-506 | A chat confirmation keeps the invariant |
| System.StepKeeps | core/views.py:329-523 | Every chat message keeps the invariant |
| System.StartLoanKeeps | core/management/commands/discord_bot.py:82-107 | A bot loan keeps the invariant |
| System.ReserveFirstAvailableKeeps | core/management/commands/discord_bot.py:65-80 | A bot reservation keeps the invariant |
| System.ReserveCommandKeeps | core/management/commands/discord_bot.py:222-243 | The /reservar command keeps the invariant |
| System.CounterKeeps | core/views.py:115-147 | Counter approval and counter cancellation keep the invariant |
| System.FormKeeps | core/views.py:69-96 | The quick-loan and return pages keep the invariant |
| System.ReturnPageIgnoresPadding | core/views.py:88-95 | The return page, which cleans the typed code through the form field first, does the same with a code as with that code surrounded by blanks |
| System.ApplyKeeps | core/models.py:65-168 | Every write operation from every entry point keeps the invariant and only evolves the store |
| System.RunKeeps | core/models.py:65-168 | Any sequence of operations keeps the invariant |
| System.ChatKeepsOneActivePerUser | core/views.py:489-491 | No chat message gives any user a second active reservation |
| System.BotAllowsSecondActive | core/management/commands/discord_bot.py:65-80 | A Secundario user who already holds an active reservation can get a second one through /reservar |
| Scenarios.ChatBookingConversation | core/tests/test_chat.py:9-34 | "reservar NB-01", "Secundario", "-", "confirmo" create one "activa" reservation of the item and leave the item Reserved |
| Scenarios.ConversationOpening | core/tests/test_chat.py:9-22 | The first three messages stage the intent, fill the level and the empty classroom, and ask for confirmation, without writing the store |
| Scenarios.ConversationClosing | core/tests/test_chat.py:24-34 | "confirmo" on the completed intent creates the reservation and clears the session |
| Scenarios.StepReserveNb01 | core/views.py:395-418 | "reservar NB-01" stages an intent for the item and asks for the level |
| Scenarios.StepSecundario | core/views.py:424-433 | "Secundario" fills the level and asks for the classroom |
| Scenarios.StepDash | core/views.py:457-475 | "-" stores an empty classroom and asks for confirmation |
| Scenarios.StepConfirmo | core/views.py:478-480 | "confirmo" with a completed intent runs the confirmation |
| Scenarios.HintMananaSetsMorning | core/views.py:370-377 | The hint's own "cambiar a mañana", sent during a reservation, sets the morning shift and changes nothing else |
| Scenarios.ConfirmReserveBooks | core/views.py:493-500 | A confirmation on an Available item by a user with no active reservation appends exactly the new reservation, marks that item Reserved and changes no other item |
| Scenarios.ReserveThenCancelRestores | core/views.py:361-367 | Confirming a reservation and then sending "cancelar" cancels that reservation and leaves every item as it was before |
| Scenarios.SecondConfirmationRefused | core/views.py:486-488 | After one confirmation reserves an item, a second confirmation on it is refused with the item's new state and changes nothing |
| Scenarios.SweepFreesOverdueHold | core/management/commands/expire_reservas.py:11-14 | An overdue active reservation holding a Reserved item is expired and the item becomes Available |

Behaviour of the code worth noting:

- Approval refuses a reservation that has no item, which the code checks
  (core/models.py:153).
- The bot lends items under maintenance and reserved items; it refuses only
  items in use (core/management/commands/discord_bot.py:88).
- Chat reservations keep the shift of the intent even for Superior
  (core/views.py:494-498).
- The bot does not enforce one active reservation per user
  (`System.BotAllowsSecondActive`).
- A bot loan converts the reservation without recording an approver.
- The counter's approve and cancel views look the reservation up among the
  "activa" ones and, when it is missing, report an error and change nothing
  (core/views.py:120-124, 139-143). `System.Apply` does the same for an id
  that does not exist, and `Reservations.TerminalIsFinal` for one that is no
  longer "activa".
- A bare "cancelar" reaches the cancel-reservation rung before the abort
  rung. It therefore leaves a pending intent in place
  (`ChatProps.BareCancelKeepsPending`).
- A clock that goes backwards gives a negative duration, and `cerrar` stores
  it: the non-negative validator on the duration field (core/models.py:60-61)
  runs only on a full clean, and `save` with `update_fields` does not run it.
  The model stores it the same way.

## Left out

- ChatText.Norm: lower-casing and accent folding are modelled only for Latin-1. Blanks follow Python's `str.isspace` in full, so the strip and the `\s` of the patterns are exact. `Norm` lower-cases ASCII and Latin-1 capitals and folds the Latin-1 letters that NFD decomposition splits into a base letter and combining marks; capitals and decomposable letters beyond Latin-1 are left as they are.
- The regular expressions are modelled only as far as the verb, the blanks and the code run. Reply wording and the suggestion buttons are not modelled; each reply is a tag carrying the data it reports.
- Clock.RoundHundredths: rounds ties up on exact integer seconds. The source uses Python's `round` on a binary float, which may round a tie either way, and it handles sub-second times, which are not modelled.
- Loans.Close: adds the rounded duration to the item's hours exactly. The source accumulates a decimal field and a float, which is not modelled.
- Queries.ItemByCodeIgnoringCase: returns the first matching item. The source's `get(code__iexact=…)` raises when two codes differ only by case, and that error path is not modelled.
- Chat.StageReturn, Chat.StageReserve and Chat.Complete: their own contracts only say that the store is not written. What they stage and answer is stated by the ChatProps lemmas listed above.
- Chat.ConfirmReserve and Chat.ConfirmReturnOf: their own contracts only say that the pending intent is cleared. What they create or close is stated by `ChatProps.ChatCreatesReservationExactly`, `ChatProps.ConfirmReturnClosesLoan` and `Scenarios.ConfirmReserveBooks`.
- The per-user session store is not modelled. `_get_state` and `_clear_pending` become `Session(None)`, and a chat operation in `System.Op` may carry any session.
- Discord messages, e-mail, `send_discord` notifications and logging are not modelled. They are fire-and-forget and do not change the store.
- The Discord client, its status and listing commands, and account linking through `DiscordLinkToken` are not modelled. They only read or touch accounts, not the inventory.
- Sign-up's account fields and the creation of the user are not modelled. Only the level, programme, year, join code and group are.
- Permission checks on the counter views, and the form `ChoiceField` validation of codes, are not modelled. Every caller is taken as allowed, and every value as a valid choice.
- Chat.Step: its own contract only says that the store stays well formed. What each rung does is stated by the ChatProps lemmas listed above.
- Maintenance records, KPIs, reports, the ML forecasts and the admin site are not modelled. They are outside the lending core.
- Concurrency, transactions and row locks are not modelled. Each operation is one atomic step.

=== FILE: bot.dfy ===
/** The synchronous store helpers behind the Discord slash commands: reserve
    the first available item of a kind, start a loan by code, hand an item
    back. The Discord client, its replies and the notifications are not part
    of this model. */
module Bot {
  import opened Wrappers
  import opened Text
  import opened Domain
  import opened Clock
  import opened Queries
  import opened Loans
  import opened Reservations

  /** What the bot reads from the linked `Profile` and its user. */
  datatype BotProfile = BotProfile(
    username: string, fullName: string, level: Level,
    career: Option<Career>, year: Option<Year>, discordId: string)

  /** `guess_turno(nivel)`: Superior always studies at night; everyone else
      gets the morning before 13:00 and the afternoon from 13:00 on. */
  function GuessShift(level: Level, now: Time): (r: Shift)
    ensures level == Higher <==> r == Night
    ensures level != Higher ==> (r == Morning <==> TimeOfDay(now) < 13 * Hour)
  {
    if level == Higher then Night
    else if HourOf(now) < 13 then Morning
    else Afternoon
  }

  /** The name recorded as requester: the full name, or the user name when the
      full name is blank, and only for Secundario. */
  function RequesterName(p: BotProfile): (r: string)
    ensures p.level != Secondary ==> r == ""
    ensures p.level == Secondary && p.fullName != "" ==> r == p.fullName
    ensures p.level == Secondary && p.fullName == "" ==> r == p.username
  {
    if p.level != Secondary then ""
    else if p.fullName != "" then p.fullName
    else p.username
  }

  /** `reserve_first_available_sync`: the Disponible item of the kind with the
      smallest code becomes Reservado and gets one new "activa" reservation;
      with no such item nothing changes. */
  function ReserveFirstAvailable(s: Store, kind: ItemKind, level: Level, shift: Shift, classroom: string,
                                 requester: string, discordId: string, now: Time, expires: Time): (r: (Store, Option<ItemId>))
    requires Valid(s)
    ensures Valid(r.0)
    ensures r.1.None? <==> forall j :: 0 <= j < |s.items| ==> !IsAvailableOfKind(s.items[j], kind)
    ensures r.1.None? ==> r.0 == s
    ensures r.1.Some? ==>
      var j := r.1.value;
      && j < |s.items| && IsAvailableOfKind(s.items[j], kind)
      && (forall k :: 0 <= k < |s.items| && IsAvailableOfKind(s.items[k], kind) ==> LexLe(s.items[j].code, s.items[k].code))
      && |r.0.items| == |s.items|
      && r.0.items[j] == s.items[j].(state := Reserved)
      && (forall k :: 0 <= k < |s.items| && k != j ==> r.0.items[k] == s.items[k])
      && r.0.loans == s.loans
      && r.0.reservations == s.reservations + [NewReservation(Some(j), kind, level, shift, classroom, requester, discordId, now, expires)]
  {
    match LeastAvailableCode(s.items, kind, |s.items|)
    case None => (s, None)
    case Some(j) =>
      var s1 := WithItemState(s, j, Reserved);
      var x := NewReservation(Some(j), kind, level, shift, classroom, requester, discordId, now, expires);
      (s1.(reservations := s1.reservations + [x]), Some(j))
  }

  /** The `/reservar` command: minutes lie in 5..180 (the slash command's
      declared range), the reservation lasts that many minutes from now, and
      the shift is guessed from the level. */
  function ReserveCommand(s: Store, p: BotProfile, kind: ItemKind, minutes: int, classroom: string,
                          callerId: string, now: Time): (r: (Store, Option<ItemId>))
    requires Valid(s) && 5 <= minutes <= 180
    ensures Valid(r.0)
    ensures r.1.Some? ==>
      && |r.0.reservations| == |s.reservations| + 1
      && var x := r.0.reservations[|s.reservations|];
      && x.expires == now + minutes * 60
      && now + 5 * 60 <= x.expires <= now + 180 * 60
      && x.shift == GuessShift(p.level, now)
      && x.discordId == (if p.discordId != "" then p.discordId else callerId)
      && x.requester == RequesterName(p)
  {
    ReserveFirstAvailable(s, kind, p.level, GuessShift(p.level, now), classroom, RequesterName(p),
                          if p.discordId != "" then p.discordId else callerId, now, now + minutes * 60)
  }

  /** The answers of `start_prestamo_sync`. */
  datatype LendOutcome = NoSuchItem | ItemInUse | ReservedByOther | Lent(loan: LoanId)

  /** The item's latest active reservation blocks the caller when it carries a
      Discord id and that id is not the caller's. */
  predicate HeldByOther(s: Store, j: ItemId, p: BotProfile) {
    var res := LatestActiveReservationOn(s, j);
    res.Some? && s.reservations[res.value].discordId != "" && s.reservations[res.value].discordId != p.discordId
  }

  /** `start_prestamo_sync`. Refuses an unknown code, an item in use, or an
      item whose latest active reservation is someone else's; Mantenimiento and
      Reservado items are not refused. Otherwise that reservation, if any,
      becomes "convertida", one loan is created and the item goes in use. */
  function StartLoan(s: Store, code: string, p: BotProfile, shift: Shift, classroom: string, now: Time): (r: (Store, LendOutcome))
    requires Valid(s)
    ensures Valid(r.0)
    ensures r.1 == NoSuchItem <==> ItemByCode(s, code).None?
    ensures r.1 == ItemInUse <==> ItemByCode(s, code).Some? && s.items[ItemByCode(s, code).value].state == InUse
    ensures r.1 == ReservedByOther <==>
      && ItemByCode(s, code).Some?
      && s.items[ItemByCode(s, code).value].state != InUse
      && HeldByOther(s, ItemByCode(s, code).value, p)
    ensures !r.1.Lent? ==> r.0 == s
    ensures r.1.Lent? ==>
      var j := ItemByCode(s, code).value;
      var res := LatestActiveReservationOn(s, j);
      && r.1.loan == |s.loans|
      && r.0.loans == s.loans + [Saved(OpenLoan(j, p.level, p.career, p.year, shift, classroom, RequesterName(p), now))]
      && |r.0.items| == |s.items|
      && r.0.items[j] == s.items[j].(state := InUse)
      && (forall k :: 0 <= k < |s.items| && k != j ==> r.0.items[k] == s.items[k])
      && |r.0.reservations| == |s.reservations|
      && (res.Some? ==> r.0.reservations[res.value] == s.reservations[res.value].(status := Converted))
      && (forall k :: 0 <= k < |s.reservations| && Some(k) != res ==> r.0.reservations[k] == s.reservations[k])
  {
    match ItemByCode(s, code)
    case None => (s, NoSuchItem)
    case Some(j) =>
      if s.items[j].state == InUse then (s, ItemInUse)
      else if HeldByOther(s, j, p) then (s, ReservedByOther)
      else
        var res := LatestActiveReservationOn(s, j);
        var s1 := if res.Some?
                  then s.(reservations := s.reservations[res.value := s.reservations[res.value].(status := Converted)])
                  else s;
        var (s2, id) := CreateLoan(s1, OpenLoan(j, p.level, p.career, p.year, shift, classroom, RequesterName(p), now));
        (WithItemState(s2, j, InUse), Lent(id))
  }

  /** `entregar_prestamo_sync`: closes the most recently started open loan of
      the item with this code, or reports that there is none. */
  function HandOver(s: Store, code: string, now: Time): (r: (Store, Option<LoanId>))
    requires Valid(s)
    ensures Valid(r.0)
    ensures r.1.None? <==> forall i :: 0 <= i < |s.loans| ==> !IsOpenLoanFor(s, s.loans[i], code)
    ensures r.1.None? ==> r.0 == s
    ensures r.1.Some? ==>
      && r.1.value < |s.loans| && IsOpenLoanFor(s, s.loans[r.1.value], code)
      && (forall i :: 0 <= i < |s.loans| && IsOpenLoanFor(s, s.loans[i], code) ==>
            s.loans[i].start <= s.loans[r.1.value].start)
      && r.0 == Close(s, r.1.value, now)
      && r.0.loans[r.1.value].status == Returned
  {
    match LatestOpenLoanFor(s, code)
    case None => (s, None)
    case Some(id) => (Close(s, id, now), Some(id))
  }

  /** The bot lends an item under maintenance: only an item in use is refused
      by state. */
  lemma LendsItemUnderMaintenance(s: Store, j: ItemId, p: BotProfile, shift: Shift, classroom: string, now: Time)
    requires Valid(s) && j < |s.items| && s.items[j].state == Maintenance
    requires forall i :: 0 <= i < |s.reservations| ==> !IsActiveOn(s.reservations[i], j)
    ensures var r := StartLoan(s, s.items[j].code, p, shift, classroom, now);
      && r.1 == Lent(|s.loans|)
      && r.0.items[j].state == InUse
  {
    assert ItemByCode(s, s.items[j].code) == Some(j);
  }

  /** A reservation made through the chat carries no Discord id, so it never
      blocks a bot loan of its item; the loan converts it instead. */
  lemma ChatReservationDoesNotBlockBot(s: Store, j: ItemId, p: BotProfile, shift: Shift, classroom: string, now: Time)
    requires Valid(s) && j < |s.items| && s.items[j].state == Reserved
    requires forall i :: 0 <= i < |s.reservations| && IsActiveOn(s.reservations[i], j) ==> s.reservations[i].discordId == ""
    requires exists i :: 0 <= i < |s.reservations| && IsActiveOn(s.reservations[i], j)
    ensures var r := StartLoan(s, s.items[j].code, p, shift, classroom, now);
      var res := LatestActiveReservationOn(s, j);
      && r.1 == Lent(|s.loans|)
      && res.Some?
      && r.0.reservations[res.value].status == Converted
  {
    assert ItemByCode(s, s.items[j].code) == Some(j);
  }
}

=== FILE: chat.dfy ===
/** `chat_api`: the per-user conversational booking engine. Each message is one
    atomic step over the store and the user's session; the session holds at
    most one pending intent, a reservation being filled in or a return
    awaiting confirmation. */
module Chat {
  import opened Wrappers
  import opened Text
  import opened Domain
  import opened Clock
  import opened Queries
  import opened Loans
  import opened Reservations
  import opened ChatText

  /** The `pending` entry of the session's `chat_state`: flow "reserve" with its
      partly filled fields, or flow "return" with the staged loan. */
  datatype Pending =
    | ReserveIntent(code: string, itemId: ItemId, kind: ItemKind, level: Option<Level>,
                    career: Option<Career>, year: Option<Year>, shift: Shift, classroom: Option<string>)
    | ReturnIntent(code: string, loanId: LoanId)

  /** `_get_state` creates the session with nothing pending; `_clear_pending`
      returns it to `Session(None)`. */
  datatype Session = Session(pending: Option<Pending>)

  /** The completion cursor of a reserve intent: the first field still missing. */
  datatype Field = AwaitLevel | AwaitCareer | AwaitYear | AwaitClassroom | Ready

  function NextField(p: Pending): Field
    requires p.ReserveIntent?
  {
    if p.level.None? then AwaitLevel
    else if p.level.value == Higher && p.career.None? then AwaitCareer
    else if p.level.value == Higher && p.year.None? then AwaitYear
    else if p.classroom.None? then AwaitClassroom
    else Ready
  }

  /** What each step answers; wording and suggestions are not modelled. */
  datatype Reply =
    | MenuText
    | ActiveReservations(reservations: set<ReservationId>)
    | OpenLoans(loans: set<LoanId>)
    | NoReservationToCancel
    | ReservationCancelled(reservation: ReservationId)
    | ShiftUpdated(shift: Shift)
    | ShiftChangeHint
    | UnknownItem(code: string)
    | NoOpenLoanOf(code: string)
    | ConfirmReturn(code: string)
    | AlreadyReserving
    | NotReservable(code: string, state: ItemState)
    | AskLevel(code: string, suggested: Shift)
    | InvalidLevel
    | AskCareer
    | InvalidCareer
    | AskYear
    | InvalidYear
    | AskClassroom
    | ConfirmReservation(summary: Pending)
    | ItemGone
    | ItemChanged(state: ItemState)
    | ReservationCreated(reservation: ReservationId, expires: Time)
    | ReturnLoanMissing
    | ReturnRegistered(loan: LoanId)
    | OperationCancelled
    | Help

  /** The rung of the intent ladder a message lands on. */
  datatype Route =
    | ToMenu
    | ToMyReservations
    | ToMyLoans
    | ToCancelReservation
    | ToChangeShift(arg: string)
    | ToReturn(code: string)
    | ToReserve(code: string)
    | ToComplete
    | ToConfirm
    | ToAbort
    | ToFallback

  const ChatCancelReason: string := "cancelada desde chatbot"

  /** The level question accepts an answer only if it mentions one of these. */
  predicate MentionsLevel(msg: string) {
    Contains(msg, "sec") || Contains(msg, "sup") || Contains(msg, "per") || Contains(msg, "docente")
    || Contains(msg, "superior") || Contains(msg, "secundario") || Contains(msg, "personal")
  }

  predicate IsConfirmation(msg: string) {
    msg in {"si", "sí", "confirmo", "ok"}
  }

  predicate IsAbort(msg: string) {
    msg in {"no", "cancelar", "cancel"}
  }

  /** The ladder of `chat_api`, tried top to bottom on the normalised message;
      the first rung that matches wins. */
  function RouteOf(msg: string, pending: Option<Pending>): (r: Route)
    ensures r == ToComplete ==> pending.Some? && pending.value.ReserveIntent? && NextField(pending.value) != Ready
    ensures r == ToConfirm ==> IsConfirmation(msg) && pending.Some?
    ensures r == ToConfirm && pending.value.ReserveIntent? ==> NextField(pending.value) == Ready
    ensures r == ToAbort ==> msg in {"no", "cancel"}
  {
    if msg == "menu" || msg == "menú" then ToMenu
    else if Contains(msg, "mis reservas") then ToMyReservations
    else if Contains(msg, "mis prestamos") || Contains(msg, "mis préstamos") then ToMyLoans
    else if Contains(msg, "cancelar reserva") || msg == "cancelar" then ToCancelReservation
    else if StartsWith(msg, "cambiar a ") then ToChangeShift(RemoveAll(msg, "cambiar a "))
    else if ReturnCode(msg).Some? then ToReturn(Upper(ReturnCode(msg).value))
    else if ReserveCode(msg).Some? then ToReserve(Upper(ReserveCode(msg).value))
    else if pending.Some? && pending.value.ReserveIntent? && NextField(pending.value) != Ready then ToComplete
    else if IsConfirmation(msg) && pending.Some? then ToConfirm
    else if IsAbort(msg) then ToAbort
    else ToFallback
  }

  /** The result of one message: the store, the user's session and the reply. */
  datatype Turn = Turn(store: Store, session: Session, reply: Reply)

  /** "devolver CODE" / "entregar CODE": stages the user's first open loan of that item. */
  function StageReturn(s: Store, st: Session, user: User, code: string): (t: Turn)
    requires Valid(s)
    ensures t.store == s
  {
    match ItemByCodeIgnoringCase(s, code)
    case None => Turn(s, st, UnknownItem(code))
    case Some(j) =>
      match FirstOpenLoanOf(s, j, user)
      case None => Turn(s, st, NoOpenLoanOf(code))
      case Some(l) => Turn(s, Session(Some(ReturnIntent(code, l))), ConfirmReturn(code))
  }

  /** "reservar CODE": stages a reserve intent with every field unset and the
      shift inferred from the clock, unless the user already holds an active
      reservation, the code is unknown, or the item is not available. */
  function StageReserve(s: Store, st: Session, user: User, code: string, now: Time): (t: Turn)
    requires Valid(s)
    ensures t.store == s
  {
    if HasActiveReservation(s, user) then Turn(s, st, AlreadyReserving)
    else match ItemByCodeIgnoringCase(s, code)
      case None => Turn(s, st, UnknownItem(code))
      case Some(j) =>
        if s.items[j].state in {InUse, Maintenance, Reserved} then Turn(s, st, NotReservable(code, s.items[j].state))
        else
          var p := ReserveIntent(code, j, s.items[j].kind, None, None, None, InferShift(now), None);
          Turn(s, Session(Some(p)), AskLevel(code, InferShift(now)))
  }

  /** The completion block: fills the field the cursor points at, or re-prompts
      with the pending intent untouched. The classroom is read from the raw
      message, and "-" or a blank answer is stored as "". */
  function Complete(s: Store, st: Session, p: Pending, msg: string, raw: string): (t: Turn)
    requires p.ReserveIntent? && NextField(p) != Ready
    ensures t.store == s
  {
    match NextField(p)
    case AwaitLevel =>
      if MentionsLevel(msg) then
        var nv := ParseLevel(msg);
        Turn(s, Session(Some(p.(level := Some(nv)))), if nv == Higher then AskCareer else AskClassroom)
      else Turn(s, st, InvalidLevel)
    case AwaitCareer =>
      (match ParseCareer(msg)
       case None => Turn(s, st, InvalidCareer)
       case Some(c) => Turn(s, Session(Some(p.(career := Some(c)))), AskYear))
    case AwaitYear =>
      (match ParseYear(msg)
       case None => Turn(s, st, InvalidYear)
       case Some(y) => Turn(s, Session(Some(p.(year := Some(y)))), AskClassroom))
    case AwaitClassroom =>
      var a := Strip(raw);
      var room := if a == "-" || a == "" then "" else a;
      var p' := p.(classroom := Some(room));
      Turn(s, Session(Some(p')), ConfirmReservation(p'))
  }

  /** "sí" / "confirmo" / "ok" with a reservation ready: re-checks the item and
      the one-active-reservation rule, then creates the reservation, expiring
      at the next 23:00, and marks the item Reserved. The pending shift is
      stored as it is: no Superior-means-night rule applies to reservations. */
  function ConfirmReserve(s: Store, p: Pending, user: User, now: Time): (t: Turn)
    requires Valid(s) && p.ReserveIntent? && NextField(p) == Ready
    ensures Valid(t.store) && t.session == Session(None)
  {
    if p.itemId >= |s.items| then Turn(s, Session(None), ItemGone)
    else if s.items[p.itemId].state != Available then Turn(s, Session(None), ItemChanged(s.items[p.itemId].state))
    else if HasActiveReservation(s, user) then Turn(s, Session(None), AlreadyReserving)
    else
      var expires := Expiry2300(now);
      var x := NewReservation(Some(p.itemId), s.items[p.itemId].kind, p.level.value, p.shift,
                              p.classroom.value, user, "", now, expires);
      var s1 := s.(reservations := s.reservations + [x]);
      Turn(WithItemState(s1, p.itemId, Reserved), Session(None), ReservationCreated(|s.reservations|, expires))
  }

  /** A confirmation with a return staged: closes the loan if it is still the
      user's and still open. */
  function ConfirmReturnOf(s: Store, loan: LoanId, user: User, now: Time): (t: Turn)
    requires Valid(s)
    ensures Valid(t.store) && t.session == Session(None)
  {
    if loan < |s.loans| && s.loans[loan].requester == user && s.loans[loan].actualEnd.None?
    then Turn(Close(s, loan, now), Session(None), ReturnRegistered(loan))
    else Turn(s, Session(None), ReturnLoanMissing)
  }

  /** "mis reservas": the user's "activa" reservations. */
  function ActiveReservationIds(s: Store, user: User): set<ReservationId> {
    set i | 0 <= i < |s.reservations| && IsActiveOf(s.reservations[i], user)
  }

  /** "mis prestamos": the user's loans with no end recorded. */
  function OpenLoanIds(s: Store, user: User): set<LoanId> {
    set i | 0 <= i < |s.loans| && s.loans[i].requester == user && s.loans[i].actualEnd.None?
  }

  /** One call of `chat_api` by `user` with message `raw` at time `now`. */
  function Step(s: Store, st: Session, user: User, raw: string, now: Time): (t: Turn)
    requires Valid(s)
    ensures Valid(t.store)
  {
    var msg := Norm(raw);
    match RouteOf(msg, st.pending)
    case ToMenu => Turn(s, st, MenuText)
    case ToMyReservations =>
      Turn(s, st, ActiveReservations(ActiveReservationIds(s, user)))
    case ToMyLoans =>
      Turn(s, st, OpenLoans(OpenLoanIds(s, user)))
    case ToCancelReservation =>
      (match FirstActiveReservationOf(s, user)
       case None => Turn(s, st, NoReservationToCancel)
       case Some(id) => Turn(Cancel(s, id, Some(user), ChatCancelReason, now), st, ReservationCancelled(id)))
    case ToChangeShift(arg) =>
      var t := ParseShift(arg);
      if st.pending.Some? && st.pending.value.ReserveIntent? && t.Some?
      then Turn(s, Session(Some(st.pending.value.(shift := t.value))), ShiftUpdated(t.value))
      else Turn(s, st, ShiftChangeHint)
    case ToReturn(code) => StageReturn(s, st, user, code)
    case ToReserve(code) => StageReserve(s, st, user, code, now)
    case ToComplete => Complete(s, st, st.pending.value, msg, raw)
    case ToConfirm =>
      (match st.pending.value
       case ReserveIntent(_, _, _, _, _, _, _, _) => ConfirmReserve(s, st.pending.value, user, now)
       case ReturnIntent(_, loan) => ConfirmReturnOf(s, loan, user, now))
    case ToAbort => Turn(s, Session(None), OperationCancelled)
    case ToFallback => Turn(s, st, Help)
  }
}

=== FILE: chat_props.dfy ===
/** Properties of the chat engine that relate the ladder, the session and the store. */
module ChatProps {
  import opened Wrappers
  import opened Text
  import opened Domain
  import opened Clock
  import opened Queries
  import opened Loans
  import opened Reservations
  import opened ChatText
  import opened Chat

  /** Position of the completion cursor; a completed field never becomes missing again. */
  function Rank(f: Field): nat {
    match f
    case AwaitLevel => 0
    case AwaitCareer => 1
    case AwaitYear => 2
    case AwaitClassroom => 3
    case Ready => 4
  }

  /** `q` is `p` with field `f` filled in and nothing else changed. */
  predicate FillsOnly(p: Pending, q: Pending, f: Field)
    requires p.ReserveIntent? && q.ReserveIntent?
  {
    match f
    case AwaitLevel => q == p.(level := q.level) && q.level.Some?
    case AwaitCareer => q == p.(career := q.career) && q.career.Some?
    case AwaitYear => q == p.(year := q.year) && q.year.Some?
    case AwaitClassroom => q == p.(classroom := q.classroom) && q.classroom.Some?
    case Ready => q == p
  }

  /** The completion rung hands the message to `Complete` unchanged. */
  lemma StepOnComplete(s: Store, st: Session, user: User, raw: string, now: Time)
    requires Valid(s) && RouteOf(Norm(raw), st.pending) == ToComplete
    ensures Step(s, st, user, raw, now) == Complete(s, st, st.pending.value, Norm(raw), raw)
  {
  }

  /** The reserve rung hands its code to `StageReserve`. */
  lemma StepOnReserve(s: Store, st: Session, user: User, raw: string, now: Time, code: string)
    requires Valid(s) && RouteOf(Norm(raw), st.pending) == ToReserve(code)
    ensures Step(s, st, user, raw, now) == StageReserve(s, st, user, code, now)
  {
  }

  /** The confirmation rung with a reserve intent is `ConfirmReserve`. */
  lemma StepOnConfirmReserve(s: Store, st: Session, user: User, raw: string, now: Time)
    requires Valid(s) && RouteOf(Norm(raw), st.pending) == ToConfirm && st.pending.value.ReserveIntent?
    ensures Step(s, st, user, raw, now) == ConfirmReserve(s, st.pending.value, user, now)
  {
  }

  /** The cancel-reservation rung cancels the user's first active reservation. */
  lemma StepOnCancel(s: Store, st: Session, user: User, raw: string, now: Time)
    requires Valid(s) && RouteOf(Norm(raw), st.pending) == ToCancelReservation && HasActiveReservation(s, user)
    ensures Step(s, st, user, raw, now).store ==
      Cancel(s, FirstActiveReservationOf(s, user).value, Some(user), ChatCancelReason, now)
  {
  }

  /** The confirmation rung with a return intent is `ConfirmReturnOf`. */
  lemma StepOnConfirmReturn(s: Store, st: Session, user: User, raw: string, now: Time)
    requires Valid(s) && RouteOf(Norm(raw), st.pending) == ToConfirm && st.pending.value.ReturnIntent?
    ensures Step(s, st, user, raw, now) == ConfirmReturnOf(s, st.pending.value.loanId, user, now)
  {
  }

  /** The "cambiar a" rung with a reservation in progress and a shift word
      sets that shift. */
  lemma StepOnChangeShift(s: Store, p: Pending, user: User, raw: string, now: Time, arg: string, t: Shift)
    requires Valid(s) && p.ReserveIntent? && RouteOf(Norm(raw), Some(p)) == ToChangeShift(arg)
    requires ParseShift(arg) == Some(t)
    ensures Step(s, Session(Some(p)), user, raw, now) == Turn(s, Session(Some(p.(shift := t))), ShiftUpdated(t))
  {
  }

  lemma CompleteAdvances(s: Store, st: Session, p: Pending, msg: string, raw: string)
    requires p.ReserveIntent? && NextField(p) != Ready && st.pending == Some(p)
    ensures var t := Complete(s, st, p, msg, raw);
      && t.session.pending.Some? && t.session.pending.value.ReserveIntent?
      && (t.session == st
          || (FillsOnly(p, t.session.pending.value, NextField(p))
              && Rank(NextField(t.session.pending.value)) > Rank(NextField(p))))
  {
    match NextField(p)
    case AwaitLevel =>
    case AwaitCareer =>
    case AwaitYear =>
    case AwaitClassroom =>
  }

  lemma ConfirmReserveLeavesOthersAlone(s: Store, p: Pending, user: User, now: Time)
    requires Valid(s) && p.ReserveIntent? && NextField(p) == Ready
    ensures var t := ConfirmReserve(s, p, user, now);
      && t.store.loans == s.loans && |t.store.items| == |s.items|
      && |t.store.reservations| >= |s.reservations|
      && t.store.reservations[..|s.reservations|] == s.reservations
      && (forall j :: 0 <= j < |s.items| && t.store.items[j] != s.items[j] ==>
            && j == p.itemId
            && |t.store.reservations| == |s.reservations| + 1
            && t.store.reservations[|s.reservations|].item == Some(j)
            && t.store.reservations[|s.reservations|].requester == user)
  {
  }

  /** The user's own first active reservation is the only one the cancel rung touches. */
  lemma CancelOwnLeavesOthersAlone(s: Store, user: User, now: Time)
    requires Valid(s) && HasActiveReservation(s, user)
    ensures var id := FirstActiveReservationOf(s, user).value;
      var r := Cancel(s, id, Some(user), ChatCancelReason, now);
      && s.reservations[id].requester == user
      && r.reservations[id] != s.reservations[id]
      && (forall k :: 0 <= k < |s.reservations| && k != id ==> r.reservations[k] == s.reservations[k])
      && (forall j :: 0 <= j < |s.items| && r.items[j] != s.items[j] ==> s.reservations[id].item == Some(j))
  {
  }

  /** A confirmed return changes only the staged loan, which is the user's,
      and the item that loan held. */
  lemma ConfirmReturnLeavesOthersAlone(s: Store, loan: LoanId, user: User, now: Time)
    requires Valid(s)
    ensures var t := ConfirmReturnOf(s, loan, user, now);
      && |t.store.loans| == |s.loans| && |t.store.items| == |s.items|
      && t.store.reservations == s.reservations
      && (forall k :: 0 <= k < |s.loans| && k != loan ==> t.store.loans[k] == s.loans[k])
      && (t.store != s ==>
            && loan < |s.loans| && s.loans[loan].requester == user
            && t.store.loans[loan] != s.loans[loan]
            && t.store.loans[loan].requester == user
            && (forall j :: 0 <= j < |s.items| && t.store.items[j] != s.items[j] ==> s.loans[loan].item == j))
  {
  }

  /** A bare "cancelar" reaches the cancel-reservation rung before the abort
      rung: it cancels the user's first active reservation, if any, and leaves
      a pending intent in place. */
  lemma BareCancelKeepsPending(s: Store, st: Session, user: User, raw: string, now: Time)
    requires Valid(s) && Norm(raw) == "cancelar"
    ensures var t := Step(s, st, user, raw, now);
      && t.session == st
      && (t.reply.ReservationCancelled? <==> HasActiveReservation(s, user))
      && (!HasActiveReservation(s, user) ==> t.store == s)
      && (t.reply.ReservationCancelled? ==>
            && t.reply.reservation < |s.reservations|
            && IsActiveOf(s.reservations[t.reply.reservation], user)
            && (forall k :: 0 <= k < t.reply.reservation ==> !IsActiveOf(s.reservations[k], user))
            && t.store.reservations[t.reply.reservation].status == Cancelled
            && t.store.reservations[t.reply.reservation].cancelledBy == Some(user)
            && t.store.reservations[t.reply.reservation].cancelReason == ChatCancelReason)
  {
    var msg := Norm(raw);
    ShortNoContain(msg, "mis reservas");
    ShortNoContain(msg, "mis prestamos");
    ShortNoContain(msg, "mis préstamos");
    assert RouteOf(msg, st.pending) == ToCancelReservation;
  }

  /** Only an explicit answer ends a pending intent: a confirmation word, or
      "no" / "cancel". Every other message keeps or replaces it. */
  lemma PendingClearedOnlyByAnswer(s: Store, st: Session, user: User, raw: string, now: Time)
    requires Valid(s) && st.pending.Some?
    requires Step(s, st, user, raw, now).session.pending.None?
    ensures IsConfirmation(Norm(raw)) || Norm(raw) == "no" || Norm(raw) == "cancel"
  {
    var msg := Norm(raw);
    var route := RouteOf(msg, st.pending);
    assert route == ToConfirm || route == ToAbort;
  }

  /** "reservar CODE" stages a fresh reserve intent exactly when the user holds
      no active reservation and the code names an available item; the
      suggested shift is the one inferred from the clock. Otherwise the
      session is left as it was. The store never changes. */
  lemma StageReserveOutcome(s: Store, st: Session, user: User, raw: string, now: Time)
    requires Valid(s) && RouteOf(Norm(raw), st.pending).ToReserve?
    ensures var code := RouteOf(Norm(raw), st.pending).code;
      var found := ItemByCodeIgnoringCase(s, code);
      var ok := !HasActiveReservation(s, user) && found.Some? && s.items[found.value].state == Available;
      var t := Step(s, st, user, raw, now);
      && t.store == s
      && (t.reply.AskLevel? <==> ok)
      && (ok ==>
            t.session.pending == Some(ReserveIntent(code, found.value, s.items[found.value].kind,
                                                    None, None, None, InferShift(now), None)))
      && (!ok ==> t.session == st)
  {
  }

  /** Each answer during completion either re-prompts with the intent
      untouched or fills exactly the field the cursor points at, so the cursor
      only moves forward: level, then programme and year for Superior, then
      classroom. */
  lemma CompletionAdvances(s: Store, st: Session, user: User, raw: string, now: Time)
    requires Valid(s) && RouteOf(Norm(raw), st.pending) == ToComplete
    ensures var p := st.pending.value;
      var t := Step(s, st, user, raw, now);
      && t.store == s
      && t.session.pending.Some? && t.session.pending.value.ReserveIntent?
      && (t.session == st
          || (FillsOnly(p, t.session.pending.value, NextField(p))
              && Rank(NextField(t.session.pending.value)) > Rank(NextField(p))))
  {
    StepOnComplete(s, st, user, raw, now);
    CompleteAdvances(s, st, st.pending.value, Norm(raw), raw);
  }

  /** Which answers each question accepts, and what it records. */
  lemma CompletionAnswers(s: Store, st: Session, user: User, raw: string, now: Time)
    requires Valid(s) && RouteOf(Norm(raw), st.pending) == ToComplete
    ensures var p := st.pending.value;
      var msg := Norm(raw);
      var t := Step(s, st, user, raw, now);
      && (NextField(p) == AwaitLevel ==>
            (t.session == st <==> !MentionsLevel(msg))
            && (MentionsLevel(msg) ==> t.session.pending.Some? && t.session.pending.value.level == Some(ParseLevel(msg))))
      && (NextField(p) == AwaitCareer ==>
            (t.session == st <==> ParseCareer(msg).None?)
            && (ParseCareer(msg).Some? ==> t.session.pending.Some? && t.session.pending.value.career == ParseCareer(msg)))
      && (NextField(p) == AwaitYear ==>
            (t.session == st <==> ParseYear(msg).None?)
            && (ParseYear(msg).Some? ==> t.session.pending.Some? && t.session.pending.value.year == ParseYear(msg)))
      && (NextField(p) == AwaitClassroom ==>
            t.session.pending.Some?
            && t.session.pending.value.classroom == Some(if Strip(raw) == "-" then "" else Strip(raw))
            && t.reply == ConfirmReservation(t.session.pending.value))
  {
    StepOnComplete(s, st, user, raw, now);
    CompleteAnswers(s, st, st.pending.value, Norm(raw), raw);
  }

  lemma CompleteAnswers(s: Store, st: Session, p: Pending, msg: string, raw: string)
    requires p.ReserveIntent? && NextField(p) != Ready && st.pending == Some(p)
    ensures var t := Complete(s, st, p, msg, raw);
      && (NextField(p) == AwaitLevel ==>
            (t.session == st <==> !MentionsLevel(msg))
            && (MentionsLevel(msg) ==> t.session.pending.Some? && t.session.pending.value.level == Some(ParseLevel(msg))))
      && (NextField(p) == AwaitCareer ==>
            (t.session == st <==> ParseCareer(msg).None?)
            && (ParseCareer(msg).Some? ==> t.session.pending.Some? && t.session.pending.value.career == ParseCareer(msg)))
      && (NextField(p) == AwaitYear ==>
            (t.session == st <==> ParseYear(msg).None?)
            && (ParseYear(msg).Some? ==> t.session.pending.Some? && t.session.pending.value.year == ParseYear(msg)))
      && (NextField(p) == AwaitClassroom ==>
            t.session.pending.Some?
            && t.session.pending.value.classroom == Some(if Strip(raw) == "-" then "" else Strip(raw))
            && t.reply == ConfirmReservation(t.session.pending.value))
  {
  }

  /** The reservations table grows through the chat exactly when a
      confirmation arrives for a complete reserve intent whose item is still
      available and whose user still holds no active reservation; it then grows
      by one "activa" reservation carrying the intent's fields, expiring at the
      next 23:00, and the item becomes Reserved. */
  lemma ChatCreatesReservationExactly(s: Store, st: Session, user: User, raw: string, now: Time)
    requires Valid(s)
    ensures var t := Step(s, st, user, raw, now);
      var route := RouteOf(Norm(raw), st.pending);
      var creates := route == ToConfirm && st.pending.value.ReserveIntent?
                     && st.pending.value.itemId < |s.items|
                     && s.items[st.pending.value.itemId].state == Available
                     && !HasActiveReservation(s, user);
      && (|t.store.reservations| != |s.reservations| <==> creates)
      && (creates ==>
            var p := st.pending.value;
            && |t.store.reservations| == |s.reservations| + 1
            && t.store.reservations[..|s.reservations|] == s.reservations
            && var x := t.store.reservations[|s.reservations|];
            && x.status == Active && x.item == Some(p.itemId) && x.requester == user
            && x.level == p.level.value && x.shift == p.shift && x.classroom == p.classroom.value
            && x.created == now && x.expires == Expiry2300(now)
            && |t.store.items| == |s.items|
            && t.store.items[p.itemId].state == Reserved
            && (forall k :: 0 <= k < |s.items| && k != p.itemId ==> t.store.items[k] == s.items[k])
            && t.store.loans == s.loans
            && t.session == Session(None)
            && t.reply == ReservationCreated(|s.reservations|, Expiry2300(now)))
  {
    var route := RouteOf(Norm(raw), st.pending);
    if route == ToConfirm && st.pending.value.ReserveIntent? {
      StepOnConfirmReserve(s, st, user, raw, now);
      ConfirmReserveCreates(s, st.pending.value, user, now);
    } else if route == ToConfirm {
      StepOnConfirmReturn(s, st, user, raw, now);
      ConfirmReturnLeavesOthersAlone(s, st.pending.value.loanId, user, now);
    } else if route == ToCancelReservation {
      if HasActiveReservation(s, user) {
        StepOnCancel(s, st, user, raw, now);
      }
    } else {
      StoreKeptOffCancelAndConfirm(s, st, user, raw, now);
    }
  }

  lemma ConfirmReserveCreates(s: Store, p: Pending, user: User, now: Time)
    requires Valid(s) && p.ReserveIntent? && NextField(p) == Ready
    ensures var t := ConfirmReserve(s, p, user, now);
      var creates := p.itemId < |s.items| && s.items[p.itemId].state == Available
                     && !HasActiveReservation(s, user);
      && (|t.store.reservations| != |s.reservations| <==> creates)
      && (creates ==>
            && |t.store.reservations| == |s.reservations| + 1
            && t.store.reservations[..|s.reservations|] == s.reservations
            && var x := t.store.reservations[|s.reservations|];
            && x.status == Active && x.item == Some(p.itemId) && x.requester == user
            && x.level == p.level.value && x.shift == p.shift && x.classroom == p.classroom.value
            && x.created == now && x.expires == Expiry2300(now)
            && |t.store.items| == |s.items|
            && t.store.items[p.itemId].state == Reserved
            && (forall k :: 0 <= k < |s.items| && k != p.itemId ==> t.store.items[k] == s.items[k])
            && t.store.loans == s.loans
            && t.session == Session(None)
            && t.reply == ReservationCreated(|s.reservations|, Expiry2300(now)))
  {
  }

  /** A confirmation whose re-check fails, because the item is gone, is no
      longer available, or the user meanwhile holds an active reservation,
      clears the intent and changes nothing else. */
  lemma RefusedConfirmationChangesNothing(s: Store, st: Session, user: User, raw: string, now: Time)
    requires Valid(s) && RouteOf(Norm(raw), st.pending) == ToConfirm && st.pending.value.ReserveIntent?
    requires st.pending.value.itemId >= |s.items|
             || s.items[st.pending.value.itemId].state != Available
             || HasActiveReservation(s, user)
    ensures var t := Step(s, st, user, raw, now);
      && t.store == s
      && t.session == Session(None)
      && !t.reply.ReservationCreated?
  {
    StepOnConfirmReserve(s, st, user, raw, now);
  }

  /** A message no rung recognises answers with help and leaves the store and
      the pending intent untouched. */
  lemma FallbackKeepsSession(s: Store, st: Session, user: User, raw: string, now: Time)
    requires Valid(s) && RouteOf(Norm(raw), st.pending) == ToFallback
    ensures var t := Step(s, st, user, raw, now);
      t.store == s && t.session == st && t.reply == Help
  {
  }

  /** A confirmation with a return staged closes that loan when it is still
      the user's and still open, recording the end and duration; otherwise the
      store is untouched. Either way the intent is cleared. */
  lemma ConfirmReturnClosesLoan(s: Store, st: Session, user: User, raw: string, now: Time)
    requires Valid(s) && RouteOf(Norm(raw), st.pending) == ToConfirm && st.pending.value.ReturnIntent?
    ensures var id := st.pending.value.loanId;
      var t := Step(s, st, user, raw, now);
      var open := id < |s.loans| && s.loans[id].requester == user && s.loans[id].actualEnd.None?;
      && t.session == Session(None)
      && (open ==>
            && t.store.loans[id].status == Returned
            && t.store.loans[id].actualEnd == Some(now)
            && t.store.loans[id].duration == Some(RoundHundredths(now - s.loans[id].start))
            && t.store.items[s.loans[id].item].state == Available
            && t.reply == ReturnRegistered(id))
      && (!open ==> t.store == s && t.reply == ReturnLoanMissing)
  {
    StepOnConfirmReturn(s, st, user, raw, now);
  }

  /** "cambiar a X" during a reservation changes only the intent's shift, and
      only when X names a shift; nothing else in the session or the store moves. */
  lemma ChangeShiftOnlyShift(s: Store, st: Session, user: User, raw: string, now: Time)
    requires Valid(s) && RouteOf(Norm(raw), st.pending).ToChangeShift?
    ensures var shift := ParseShift(RouteOf(Norm(raw), st.pending).arg);
      var t := Step(s, st, user, raw, now);
      var applies := st.pending.Some? && st.pending.value.ReserveIntent? && shift.Some?;
      && t.store == s
      && (applies ==>
            t.session.pending.Some? && t.session.pending.value.ReserveIntent?
            && t.session.pending.value == st.pending.value.(shift := t.session.pending.value.shift)
            && StartsWith(Norm(RouteOf(Norm(raw), st.pending).arg), ShiftPrefix(t.session.pending.value.shift)))
      && (!applies ==> t.session == st && t.reply == ShiftChangeHint)
  {
  }

  /** The store changes only on the cancel-reservation rung and on a
      confirmation; every other rung, staging included, is read-only. */
  lemma StoreChangesOnlyOnCancelOrConfirm(s: Store, st: Session, user: User, raw: string, now: Time)
    requires Valid(s)
    requires Step(s, st, user, raw, now).store != s
    ensures RouteOf(Norm(raw), st.pending) in {ToCancelReservation, ToConfirm}
  {
    if RouteOf(Norm(raw), st.pending) == ToComplete {
      StepOnComplete(s, st, user, raw, now);
    }
  }

  /** The same, read the other way: every other rung leaves the store as it is. */
  lemma StoreKeptOffCancelAndConfirm(s: Store, st: Session, user: User, raw: string, now: Time)
    requires Valid(s)
    requires RouteOf(Norm(raw), st.pending) != ToCancelReservation && RouteOf(Norm(raw), st.pending) != ToConfirm
    ensures Step(s, st, user, raw, now).store == s
  {
    if RouteOf(Norm(raw), st.pending) == ToComplete {
      StepOnComplete(s, st, user, raw, now);
    }
  }

  /** Item `j` belongs to a record of `user` that differs between `s` and
      `r`: a reservation that changed or was appended, or a loan that changed. */
  predicate ItemOfChangedRecord(s: Store, r: Store, user: User, j: ItemId) {
    || (exists k :: 0 <= k < |r.reservations| && r.reservations[k].requester == user && r.reservations[k].item == Some(j)
          && (k >= |s.reservations| || r.reservations[k] != s.reservations[k]))
    || (exists k :: 0 <= k < |r.loans| && k < |s.loans| && r.loans[k].requester == user && r.loans[k].item == j
          && r.loans[k] != s.loans[k])
  }

  /** `r` differs from `s` only in records of `user` and in the items those
      records hold, loans are neither added nor removed, and reservations are
      only appended. */
  predicate OthersAlone(s: Store, r: Store, user: User) {
    && |r.loans| == |s.loans| && |r.items| == |s.items|
    && |r.reservations| >= |s.reservations|
    && (forall k :: 0 <= k < |s.loans| && s.loans[k].requester != user ==> r.loans[k] == s.loans[k])
    && (forall k :: 0 <= k < |s.reservations| && s.reservations[k].requester != user ==>
          r.reservations[k] == s.reservations[k])
    && (forall j :: 0 <= j < |s.items| && r.items[j] != s.items[j] ==> ItemOfChangedRecord(s, r, user, j))
  }

  /** A chat step acts only on the chatting user's own records: loans and
      reservations of every other requester are exactly as before, no loan is
      created, and reservations are only ever appended. */
  lemma ChatLeavesOthersAlone(s: Store, st: Session, user: User, raw: string, now: Time)
    requires Valid(s)
    ensures OthersAlone(s, Step(s, st, user, raw, now).store, user)
  {
    var route := RouteOf(Norm(raw), st.pending);
    var t := Step(s, st, user, raw, now);
    if t.store == s {
      assert OthersAlone(s, s, user);
    } else {
      StoreChangesOnlyOnCancelOrConfirm(s, st, user, raw, now);
      var r := t.store;
      if route == ToCancelReservation {
        CancelOwnLeavesOthersAlone(s, user, now);
        var id := FirstActiveReservationOf(s, user).value;
        forall j | 0 <= j < |s.items| && r.items[j] != s.items[j]
          ensures ItemOfChangedRecord(s, r, user, j)
        {
          assert r.reservations[id].requester == user && r.reservations[id].item == Some(j);
        }
      } else if st.pending.value.ReserveIntent? {
        StepOnConfirmReserve(s, st, user, raw, now);
        ConfirmReserveLeavesOthersAlone(s, st.pending.value, user, now);
        forall j | 0 <= j < |s.items| && r.items[j] != s.items[j]
          ensures ItemOfChangedRecord(s, r, user, j)
        {
          var n := |s.reservations|;
          assert r.reservations[n].requester == user && r.reservations[n].item == Some(j);
        }
      } else {
        StepOnConfirmReturn(s, st, user, raw, now);
        var loan := st.pending.value.loanId;
        ConfirmReturnLeavesOthersAlone(s, loan, user, now);
        forall j | 0 <= j < |s.items| && r.items[j] != s.items[j]
          ensures ItemOfChangedRecord(s, r, user, j)
        {
          assert r.loans[loan].requester == user && r.loans[loan].item == j;
        }
      }
    }
  }

  /** Reservations made through the chat keep the shift the intent carries,
      even for Superior, where the loan rule demands the night shift; the rule
      is applied only when the reservation is converted into a loan. */
  lemma ChatReservationSkipsNightRule(s: Store, st: Session, user: User, raw: string, now: Time,
                                      approver: User, later: Time)
    requires Valid(s) && RouteOf(Norm(raw), st.pending) == ToConfirm
    requires st.pending.value.ReserveIntent?
    requires st.pending.value.level == Some(Higher) && st.pending.value.shift == Morning
    requires st.pending.value.itemId < |s.items| && s.items[st.pending.value.itemId].state == Available
    requires !HasActiveReservation(s, user)
    ensures var t := Step(s, st, user, raw, now);
      var id := |s.reservations|;
      && id < |t.store.reservations|
      && t.store.reservations[id].level == Higher
      && t.store.reservations[id].shift == Morning
      && var r := ApproveAndConvert(t.store, id, approver, later);
      && r.1 == Some(|s.loans|)
      && r.0.loans[|s.loans|].shift == Night
  {
    ChatCreatesReservationExactly(s, st, user, raw, now);
  }
}

=== FILE: chat_text.dfy ===
/** The chat engine's text layer: `_norm`, the four answer parsers and the two
    `verb CODE` patterns the intent ladder searches for. */
module ChatText {
  import opened Wrappers
  import opened Text
  import opened Domain

  /** Python's `lower()` on a Latin-1 capital: À to Þ, except ×, move up by
      0x20 to à to þ. */
  function LowerLatin1(c: char): char {
    if 0xC0 <= c as int <= 0xDE && c as int != 0xD7 then (c as int + 0x20) as char else c
  }

  /** One character after `lower()`, a canonical decomposition and the removal
      of every combining mark: a Latin-1 letter with a grave, an acute, a
      circumflex, a tilde, a ring, a diaeresis or a cedilla becomes its
      lower-case base letter. */
  function FoldChar(c: char): char {
    if c as int < 0xC0 then c
    else
      var l := LowerLatin1(c) as int;
      if 0xE0 <= l <= 0xE5 then 'a'
      else if l == 0xE7 then 'c'
      else if 0xE8 <= l <= 0xEB then 'e'
      else if 0xEC <= l <= 0xEF then 'i'
      else if l == 0xF1 then 'n'
      else if 0xF2 <= l <= 0xF6 then 'o'
      else if 0xF9 <= l <= 0xFC then 'u'
      else if l == 0xFD || l == 0xFF then 'y'
      else l as char
  }

  predicate IsAsciiUpper(c: char) {
    'A' <= c <= 'Z'
  }

  /** Folding is done once and for all, leaves no capital and never makes or
      removes a blank. */
  lemma FoldCharSettles(c: char)
    ensures FoldChar(FoldChar(LowerChar(c))) == FoldChar(LowerChar(c))
    ensures !IsAsciiUpper(FoldChar(LowerChar(c)))
    ensures IsSpace(FoldChar(LowerChar(c))) <==> IsSpace(c)
  {
  }

  /** `lower()` and the accent removal, one character at a time. */
  function LowerFold(s: string): (r: string)
    ensures |r| == |s|
    ensures forall i :: 0 <= i < |s| ==> r[i] == FoldChar(LowerChar(s[i]))
  {
    seq(|s|, i requires 0 <= i < |s| => FoldChar(LowerChar(s[i])))
  }

  /** `_norm`: lower-cased, stripped of surrounding white space and of accents.
      Folding never makes or removes a blank, so folding before the strip
      gives the string folding after it would. */
  function Norm(s: string): (r: string)
    ensures |r| > 0 ==> !IsSpace(r[0]) && !IsSpace(r[|r| - 1])
  {
    Strip(LowerFold(s))
  }

  /** Every character of a normalised message is lower case and has nothing
      left to fold. */
  lemma NormSettled(s: string)
    ensures forall i :: 0 <= i < |Norm(s)| ==> !IsAsciiUpper(Norm(s)[i]) && FoldChar(LowerChar(Norm(s)[i])) == Norm(s)[i]
  {
    var m := LowerFold(s);
    var n := Strip(m);
    var off := |m| - |TrimStart(m)|;
    StripInfix(m);
    forall i | 0 <= i < |n|
      ensures !IsAsciiUpper(n[i]) && FoldChar(LowerChar(n[i])) == n[i]
    {
      assert n[i] == m[off + i] == FoldChar(LowerChar(s[off + i]));
      FoldCharSettles(s[off + i]);
    }
  }

  /** `_parse_*` normalise a message the chat has already normalised: doing so
      changes nothing. */
  lemma NormIdempotent(s: string)
    ensures Norm(Norm(s)) == Norm(s)
  {
    NormSettled(s);
    SettledNorm(Norm(s));
  }

  /** The answers the chat suggests for each question. */
  function LevelLabel(l: Level): string {
    match l
    case Secondary => "Secundario"
    case Higher => "Superior"
    case Staff => "Personal"
  }

  function ShiftWord(t: Shift): string {
    match t
    case Morning => "mañana"
    case Afternoon => "tarde"
    case Night => "noche"
  }

  function CareerLabel(c: Career): string {
    match c
    case DataScience => "TCD"
    case TechTeaching => "PTEC"
  }

  function YearLabel(y: Year): string {
    match y
    case First => "1"
    case Second => "2"
  }

  /** `_parse_nivel`: total; anything unrecognised is Secundario. */
  function ParseLevel(s: string): (r: Level)
    ensures StartsWith(Norm(s), "sup") <==> r == Higher
    ensures r == Staff ==> StartsWith(Norm(s), "per") || Contains(Norm(s), "docente")
    ensures !StartsWith(Norm(s), "sup") && (StartsWith(Norm(s), "per") || Contains(Norm(s), "docente")) ==> r == Staff
  {
    var n := Norm(s);
    if StartsWith(n, "sup") then Higher
    else if StartsWith(n, "per") || Contains(n, "docente") then Staff
    else Secondary
  }

  /** The three letters `_parse_turno` recognises for each shift. */
  function ShiftPrefix(t: Shift): string {
    match t
    case Morning => "man"
    case Afternoon => "tar"
    case Night => "noc"
  }

  /** `_parse_turno`: a shift only for a recognised three-letter prefix;
      `None` for everything else. */
  function ParseShift(s: string): (r: Option<Shift>)
    ensures r.None? <==> !StartsWith(Norm(s), "man") && !StartsWith(Norm(s), "tar") && !StartsWith(Norm(s), "noc")
    ensures r.Some? ==> StartsWith(Norm(s), ShiftPrefix(r.value))
  {
    var n := Norm(s);
    if StartsWith(n, "man") then Some(Morning)
    else if StartsWith(n, "tar") then Some(Afternoon)
    else if StartsWith(n, "noc") then Some(Night)
    else None
  }

  /** `_parse_carrera`: `None` unless the answer starts with "tcd" or "pte" or
      mentions "prof". */
  function ParseCareer(s: string): (r: Option<Career>)
    ensures r.None? <==> !StartsWith(Norm(s), "tcd") && !StartsWith(Norm(s), "pte") && !Contains(Norm(s), "prof")
    ensures r == Some(DataScience) <==> StartsWith(Norm(s), "tcd")
  {
    var n := Norm(s);
    if StartsWith(n, "tcd") then Some(DataScience)
    else if StartsWith(n, "pte") || Contains(n, "prof") then Some(TechTeaching)
    else None
  }

  /** `_parse_anio`: `None` unless the answer starts with the digit 1 or 2. */
  function ParseYear(s: string): (r: Option<Year>)
    ensures r.None? <==> |Norm(s)| == 0 || (Norm(s)[0] != '1' && Norm(s)[0] != '2')
    ensures r.Some? ==> Norm(s)[0] == YearLabel(r.value)[0]
  {
    var n := Norm(s);
    if StartsWith(n, "1") then Some(First)
    else if StartsWith(n, "2") then Some(Second)
    else None
  }

  /** A word with no white space at either end and no Latin-1 letter
      normalises to its lower case. */
  lemma NormOfLabel(w: string)
    requires |w| > 0 && !IsSpace(w[0]) && !IsSpace(w[|w| - 1])
    requires forall k :: 0 <= k < |w| ==> w[k] as int < 0xC0
    ensures Norm(w) == Lower(w)
  {
    assert LowerFold(w) == Lower(w);
    StripNoBlanks(Lower(w));
  }

  /** Each suggested answer parses back to the value it names: the level labels, */
  lemma LevelRoundTrip(l: Level)
    ensures ParseLevel(LevelLabel(l)) == l
  {
    if l == Staff {
      NormOfLabel("Personal");
      StaffLabelParses(Lower("Personal"));
    } else if l == Secondary {
      NormOfLabel("Secundario");
      SecondaryLabelParses(Lower("Secundario"));
    } else {
      NormOfLabel("Superior");
      var ll := Lower("Superior");
      assert ll[0] == 's' && ll[1] == 'u' && ll[2] == 'p';
      assert ll[..3] == "sup";
    }
  }

  lemma StaffLabelParses(ll: string)
    requires ll == Lower("Personal")
    ensures StartsWith(ll, "per") && !StartsWith(ll, "sup")
  {
    assert ll[0] == 'p' && ll[1] == 'e' && ll[2] == 'r';
    assert ll[..3] == "per";
  }

  lemma SecondaryLabelParses(ll: string)
    requires ll == Lower("Secundario")
    ensures !StartsWith(ll, "per") && !StartsWith(ll, "sup") && !Contains(ll, "docente")
  {
    assert ll[0] == 's' && ll[1] == 'e' && ll[2] == 'c' && ll[3] == 'u' && ll[4] == 'n';
    assert ll[5] == 'd' && ll[6] == 'a' && ll[7] == 'r' && ll[8] == 'i' && ll[9] == 'o';
    assert ll == "secundario";
    NoDocente(ll);
    assert ll[..3][1] == 'e';
  }

  /** the shift words, */
  lemma ShiftRoundTrip(t: Shift)
    ensures ParseShift(ShiftWord(t)) == Some(t)
  {
    var n := if t == Morning then "manana" else ShiftWord(t);
    if t == Morning {
      MananaNorm();
    } else {
      SettledNorm(ShiftWord(t));
    }
    assert n[..3] == ShiftPrefix(t);
  }

  /** The hint's own word for the morning shift loses its tilde. */
  lemma MananaNorm()
    ensures Norm("mañana") == "manana"
  {
    assert LowerFold("mañana") == "manana";
    StripNoBlanks("manana");
  }

  /** A word with no blank at either end, no capital and nothing to fold is its
      own normal form. */
  lemma SettledNorm(w: string)
    requires |w| > 0 ==> !IsSpace(w[0]) && !IsSpace(w[|w| - 1])
    requires forall k :: 0 <= k < |w| ==> !IsAsciiUpper(w[k]) && FoldChar(LowerChar(w[k])) == w[k]
    ensures Norm(w) == w
  {
    assert LowerFold(w) == w;
    StripNoBlanks(w);
  }

  /** the programme codes */
  lemma CareerRoundTrip(c: Career)
    ensures ParseCareer(CareerLabel(c)) == Some(c)
  {
    if c == DataScience {
      NormOfLabel("TCD");
      assert Lower("TCD") == "tcd";
    } else {
      NormOfLabel("PTEC");
      assert Lower("PTEC") == "ptec";
    }
  }

  /** and the year digits. */
  lemma YearRoundTrip(y: Year)
    ensures ParseYear(YearLabel(y)) == Some(y)
  {
    SettledNorm(YearLabel(y));
  }

  /** A string shorter than the pattern cannot contain it. */
  lemma {:induction false} ShortNoContain(s: string, p: string)
    requires |s| < |p|
    ensures !Contains(s, p)
    decreases |s|
  {
    if |s| > 0 {
      ShortNoContain(s[1..], p);
    }
  }

  /** One step of the search: no match here and none further on. */
  lemma NoContainStep(s: string, p: string)
    requires |s| > 0 && |p| > 0 && s[0] != p[0] && !Contains(s[1..], p)
    ensures !Contains(s, p)
  {
    assert !StartsWith(s, p) by {
      if |p| <= |s| { assert s[..|p|][0] != p[0]; }
    }
  }

  /** "secundario" does not mention "docente". */
  lemma NoDocente(s: string)
    requires s == "secundario"
    ensures !Contains(s, "docente")
  {
    var p := "docente";
    ShortNoContain(s[4..], p);
    assert s[3..][1..] == s[4..];
    NoContainStep(s[3..], p);
    assert s[2..][1..] == s[3..];
    NoContainStep(s[2..], p);
    assert s[1..][1..] == s[2..];
    NoContainStep(s[1..], p);
    NoContainStep(s, p);
  }

  /** `[a-z0-9\-]`, the characters of an item code in a normalised message. */
  predicate IsCodeChar(c: char) {
    'a' <= c <= 'z' || '0' <= c <= '9' || c == '-'
  }

  /** The length of the white-space run starting at `i`. */
  function SpaceRun(s: string, i: nat): (n: nat)
    requires i <= |s|
    ensures i + n <= |s|
    ensures forall k :: i <= k < i + n ==> IsSpace(s[k])
    ensures i + n < |s| ==> !IsSpace(s[i + n])
    decreases |s| - i
  {
    if i < |s| && IsSpace(s[i]) then 1 + SpaceRun(s, i + 1) else 0
  }

  /** The length of the code-character run starting at `i`. */
  function CodeRun(s: string, i: nat): (n: nat)
    requires i <= |s|
    ensures i + n <= |s|
    ensures forall k :: i <= k < i + n ==> IsCodeChar(s[k])
    ensures i + n < |s| ==> !IsCodeChar(s[i + n])
    decreases |s| - i
  {
    if i < |s| && IsCodeChar(s[i]) then 1 + CodeRun(s, i + 1) else 0
  }

  /** `\s+([a-z0-9\-]+)` matched at `j`: at least one space, then the longest
      non-empty run of code characters (greedy, so backtracking cannot help). */
  function CodeAfterSpaces(s: string, j: nat): (r: Option<string>)
    requires j <= |s|
    ensures r.Some? ==> |r.value| > 0 && forall k :: 0 <= k < |r.value| ==> IsCodeChar(r.value[k])
  {
    var w := SpaceRun(s, j);
    if w >= 1 && j + w < |s| && IsCodeChar(s[j + w])
    then Some(s[j + w .. j + w + CodeRun(s, j + w)])
    else None
  }

  /** `(devolver|entregar)\s+([a-z0-9\-]+)` anchored at `i`. */
  function ReturnCodeAt(s: string, i: nat): (r: Option<string>)
    requires i <= |s|
  {
    if StartsWith(s[i..], "devolver") || StartsWith(s[i..], "entregar")
    then CodeAfterSpaces(s, i + 8)
    else None
  }

  /** `reserv(ar|a)\s+([a-z0-9\-]+)` anchored at `i`: the "ar" alternative is
      tried first; when it fails, the "a" alternative needs white space where
      the "r" stands, so it fails too. */
  function ReserveCodeAt(s: string, i: nat): (r: Option<string>)
    requires i <= |s|
  {
    if !StartsWith(s[i..], "reserva") then None
    else if i + 7 < |s| && s[i + 7] == 'r' then CodeAfterSpaces(s, i + 8)
    else CodeAfterSpaces(s, i + 7)
  }

  /** Where `re.search` finds the return pattern: the leftmost position at or
      after `i` where it matches. */
  function ReturnMatchFrom(s: string, i: nat): (r: Option<nat>)
    requires i <= |s|
    ensures r.Some? ==> i <= r.value <= |s| && ReturnCodeAt(s, r.value).Some?
    ensures r.Some? ==> forall m :: i <= m < r.value ==> ReturnCodeAt(s, m).None?
    ensures r.None? <==> forall k :: i <= k <= |s| ==> ReturnCodeAt(s, k).None?
    decreases |s| - i
  {
    if ReturnCodeAt(s, i).Some? then Some(i)
    else if i == |s| then None
    else ReturnMatchFrom(s, i + 1)
  }

  /** Where `re.search` finds the reserve pattern. */
  function ReserveMatchFrom(s: string, i: nat): (r: Option<nat>)
    requires i <= |s|
    ensures r.Some? ==> i <= r.value <= |s| && ReserveCodeAt(s, r.value).Some?
    ensures r.Some? ==> forall m :: i <= m < r.value ==> ReserveCodeAt(s, m).None?
    ensures r.None? <==> forall k :: i <= k <= |s| ==> ReserveCodeAt(s, k).None?
    decreases |s| - i
  {
    if ReserveCodeAt(s, i).Some? then Some(i)
    else if i == |s| then None
    else ReserveMatchFrom(s, i + 1)
  }

  /** `re.search` with the return pattern: the code of the leftmost match. */
  function ReturnCodeFrom(s: string, i: nat): (r: Option<string>)
    requires i <= |s|
    ensures r.None? <==> forall k :: i <= k <= |s| ==> ReturnCodeAt(s, k).None?
    ensures r.Some? ==> exists k :: i <= k <= |s| && r == ReturnCodeAt(s, k) &&
                                    (forall m :: i <= m < k ==> ReturnCodeAt(s, m).None?)
  {
    match ReturnMatchFrom(s, i)
    case None => None
    case Some(k) => ReturnCodeAt(s, k)
  }

  /** `re.search` with the reserve pattern: the code of the leftmost match. */
  function ReserveCodeFrom(s: string, i: nat): (r: Option<string>)
    requires i <= |s|
    ensures r.None? <==> forall k :: i <= k <= |s| ==> ReserveCodeAt(s, k).None?
    ensures r.Some? ==> exists k :: i <= k <= |s| && r == ReserveCodeAt(s, k) &&
                                    (forall m :: i <= m < k ==> ReserveCodeAt(s, m).None?)
  {
    match ReserveMatchFrom(s, i)
    case None => None
    case Some(k) => ReserveCodeAt(s, k)
  }

  function ReturnCode(msg: string): Option<string> {
    ReturnCodeFrom(msg, 0)
  }

  function ReserveCode(msg: string): Option<string> {
    ReserveCodeFrom(msg, 0)
  }

  predicate IsCode(c: string) {
    |c| > 0 && forall k :: 0 <= k < |c| ==> IsCodeChar(c[k])
  }

  /** A code run that reaches the end of the string covers all of it. */
  lemma {:induction false} CodeRunToEnd(s: string, i: nat)
    requires i <= |s|
    requires forall k :: i <= k < |s| ==> IsCodeChar(s[k])
    ensures CodeRun(s, i) == |s| - i
    decreases |s| - i
  {
    if i < |s| {
      CodeRunToEnd(s, i + 1);
    }
  }

  /** A run of blanks ended by a non-blank is exactly the run `SpaceRun` measures. */
  lemma {:induction false} SpaceRunUpTo(s: string, i: nat, j: nat)
    requires i <= j < |s| && !IsSpace(s[j])
    requires forall k :: i <= k < j ==> IsSpace(s[k])
    ensures SpaceRun(s, i) == j - i
    decreases j - i
  {
    if i < j {
      SpaceRunUpTo(s, i + 1, j);
    }
  }

  /** `CodeAfterSpaces` at the start of blanks followed by a code reaching the
      end of the message yields that code. */
  lemma CodeAfterBlanks(s: string, j: nat, sep: string, c: string)
    requires IsBlanks(sep) && IsCode(c) && j + |sep| + |c| == |s|
    requires s[j..] == sep + c
    ensures CodeAfterSpaces(s, j) == Some(c)
  {
    var e := j + |sep|;
    assert forall k :: j <= k < e ==> s[k] == sep[k - j];
    assert s[e] == c[0];
    SpaceRunUpTo(s, j, e);
    assert forall k :: e <= k < |s| ==> s[k] == c[k - e];
    CodeRunToEnd(s, e);
    assert SpaceRun(s, j) == |sep| >= 1 && e < |s|;
    assert IsCodeChar(c[0]) && IsCodeChar(s[e]);
    assert CodeRun(s, e) == |c|;
    assert s[e..e + |c|] == c;
  }

  /** One or more blanks, as `\s+` matches them. */
  predicate IsBlanks(sep: string) {
    |sep| > 0 && forall k :: 0 <= k < |sep| ==> IsSpace(sep[k])
  }

  /** The message the chat suggests, "reservar CODE", yields exactly CODE,
      whatever blanks separate the verb from the code, */
  lemma ReserveCodeRoundTrip(sep: string, c: string)
    requires IsBlanks(sep) && IsCode(c)
    ensures ReserveCode("reservar" + sep + c) == Some(c)
  {
    var s := "reservar" + sep + c;
    assert s[0..] == s && s[..7] == "reserva" && s[7] == 'r';
    assert s[8..] == sep + c;
    CodeAfterBlanks(s, 8, sep, c);
    assert ReserveCodeAt(s, 0) == Some(c);
  }

  /** and so does "devolver CODE". */
  lemma ReturnCodeRoundTrip(sep: string, c: string)
    requires IsBlanks(sep) && IsCode(c)
    ensures ReturnCode("devolver" + sep + c) == Some(c)
  {
    var d := "devolver" + sep + c;
    assert d[0..] == d && d[..8] == "devolver";
    assert d[8..] == sep + c;
    CodeAfterBlanks(d, 8, sep, c);
    assert ReturnCodeAt(d, 0) == Some(c);
  }

  /** A no-break space is a blank to `strip()`: "menu" followed by one
      normalises to "menu". */
  lemma NoBreakSpaceStripped()
    ensures Norm("menu\U{A0}") == "menu"
  {
    var m := "menu\U{A0}";
    assert LowerFold(m) == m;
    assert TrimStart(m) == m;
    assert m[..4] == "menu";
    assert TrimEnd("menu") == "menu";
  }
}

=== FILE: clock.dfy ===
/** Time-of-day arithmetic used by the chat engine, the bot and loan closing. */
module Clock {
  import opened Domain

  const Hour: int := 3600
  const Day: int := 86400

  /** Seconds since local midnight. */
  function TimeOfDay(t: Time): (r: int)
    ensures 0 <= r < Day
  {
    t % Day
  }

  /** The local hour, 0..23. */
  function HourOf(t: Time): (r: int)
    ensures 0 <= r < 24
    ensures r * Hour <= TimeOfDay(t) < (r + 1) * Hour
  {
    TimeOfDay(t) / Hour
  }

  /** `_expira_2300`: the first instant at 23:00:00 that is not before `t`. */
  function Expiry2300(t: Time): (e: Time)
    ensures TimeOfDay(e) == 23 * Hour
    ensures t <= e < t + Day
    ensures TimeOfDay(t) <= 23 * Hour ==> e / Day == t / Day
    ensures TimeOfDay(t) > 23 * Hour ==> e / Day == t / Day + 1
  {
    var exp := t - t % Day + 23 * Hour;
    if t > exp then exp + Day else exp
  }

  /** `_infer_turno`: the shift suggested for a time of day. The source's
      explicit 17:15-23:00 window returns the same value as its final default,
      so both collapse into the last branch. */
  function InferShift(t: Time): (r: Shift)
  {
    var tod := TimeOfDay(t);
    if 6 * Hour <= tod <= 12 * Hour then Morning
    else if 13 * Hour <= tod <= 17 * Hour then Afternoon
    else Night
  }

  /** The suggested shift, told apart by the window the time falls in: mornings
      06:00-12:00 and afternoons 13:00-17:00 inclusive; every other time,
      including the gaps 12:00-13:00 and 17:00-17:15, is night. */
  lemma InferShiftWindows(t: Time)
    ensures InferShift(t) == Morning <==> 21600 <= TimeOfDay(t) <= 43200
    ensures InferShift(t) == Afternoon <==> 46800 <= TimeOfDay(t) <= 61200
    ensures InferShift(t) == Night <==> TimeOfDay(t) < 21600 || 43200 < TimeOfDay(t) < 46800 || 61200 < TimeOfDay(t)
  {
  }

  /** `round(seconds / 3600, 2)` expressed in hundredths of an hour: the nearest
      whole number of hundredths (36 seconds each), ties rounded up. */
  function RoundHundredths(seconds: int): (r: int)
    ensures seconds - 18 < 36 * r <= seconds + 18
  {
    (seconds + 18) / 36
  }

  /** The rounding is the unique nearest hundredth, so an exact number of
      hundredths is reproduced, and a non-negative span never rounds below zero. */
  lemma RoundHundredthsExact(h: int)
    ensures RoundHundredths(36 * h) == h
  {
  }

  lemma RoundHundredthsMonotone(a: int, b: int)
    requires a <= b
    ensures 0 <= RoundHundredths(b) - RoundHundredths(a)
  {
  }
}

=== FILE: domain.dfy ===
/** The records of the lending system (items, loans, reservations) and the
    store that holds them. Ids are positions: the database's auto-increment
    primary keys, with no row ever deleted by the operations modelled here. */
module Domain {
  import opened Wrappers

  /** `Turno`: M (Mañana), T (Tarde), N (Noche). */
  datatype Shift = Morning | Afternoon | Night

  /** `Nivel`: SEC (Secundario), SUP (Superior), PER (Personal/Docente). */
  datatype Level = Secondary | Higher | Staff

  /** `TipoItem`: NB, TB, AL. */
  datatype ItemKind = Notebook | Tablet | ExtensionCord

  /** `EstadoItem`: DISP, USO, MANT, RES. */
  datatype ItemState = Available | InUse | Maintenance | Reserved

  /** `CarreraSup`: the two higher-education programmes. */
  datatype Career = DataScience | TechTeaching

  /** `AnioSup`: first or second year. */
  datatype Year = First | Second

  /** Seconds of local time. */
  type Time = int

  /** A user name, as stored in the `solicitante` column and in the
      approver/canceller foreign keys. */
  type User = string

  type ItemId = nat
  type LoanId = nat
  type ReservationId = nat

  /** An inventory unit. `hours` is the cumulative use in hundredths of an hour. */
  datatype Item = Item(code: string, kind: ItemKind, state: ItemState, hours: int, uses: nat)

  /** `Prestamo.estado`: "activo" until closed, then "devuelto". */
  datatype LoanStatus = Open | Returned

  /** A borrowing episode; `duration` is in hundredths of an hour. */
  datatype Loan = Loan(
    item: ItemId,
    level: Level,
    career: Option<Career>,
    year: Option<Year>,
    shift: Shift,
    classroom: string,
    requester: string,
    start: Time,
    expectedEnd: Option<Time>,
    actualEnd: Option<Time>,
    duration: Option<int>,
    status: LoanStatus)

  /** `Reserva.estado`: "activa", "convertida", "cancelada", "expirada". */
  datatype ReservationStatus = Active | Converted | Cancelled | Expired

  datatype Reservation = Reservation(
    item: Option<ItemId>,
    kind: ItemKind,
    level: Level,
    shift: Shift,
    classroom: string,
    requester: string,
    discordId: string,
    created: Time,
    expires: Time,
    status: ReservationStatus,
    approvedBy: Option<User>,
    approvedAt: Option<Time>,
    cancelledBy: Option<User>,
    cancelledAt: Option<Time>,
    cancelReason: string)

  datatype Store = Store(items: seq<Item>, loans: seq<Loan>, reservations: seq<Reservation>)

  /** What the database schema guarantees: every foreign key names an existing
      item, and item codes are unique. */
  predicate Valid(s: Store) {
    && (forall i :: 0 <= i < |s.loans| ==> s.loans[i].item < |s.items|)
    && (forall i :: 0 <= i < |s.reservations| ==>
          s.reservations[i].item.Some? ==> s.reservations[i].item.value < |s.items|)
    && (forall i, j :: 0 <= i < j < |s.items| ==> s.items[i].code != s.items[j].code)
  }

  /** A fresh reservation in status "activa" with no approval or cancellation recorded. */
  function NewReservation(item: Option<ItemId>, kind: ItemKind, level: Level, shift: Shift,
                          classroom: string, requester: string, discordId: string,
                          created: Time, expires: Time): (r: Reservation)
    ensures r.status == Active && r.item == item && r.expires == expires
    ensures r.approvedBy.None? && r.approvedAt.None? && r.cancelledBy.None? && r.cancelledAt.None?
  {
    Reservation(item, kind, level, shift, classroom, requester, discordId, created, expires,
                Active, None, None, None, None, "")
  }

  /** Sets the state of one item; every other field of the store is kept. */
  function WithItemState(s: Store, j: ItemId, state: ItemState): (r: Store)
    requires Valid(s) && j < |s.items|
    ensures Valid(r)
    ensures |r.items| == |s.items| && r.items[j] == s.items[j].(state := state)
    ensures forall k :: 0 <= k < |s.items| && k != j ==> r.items[k] == s.items[k]
    ensures r.loans == s.loans && r.reservations == s.reservations
  {
    s.(items := s.items[j := s.items[j].(state := state)])
  }
}

=== FILE: forms.dfy ===
/** The web forms that write to the store: the quick loan, the return by code,
    and the level / join-code / group logic of sign-up. Each `clean` is a
    validator returning the first error the source raises; each `save` runs
    only on what its `clean` accepted. */
module Forms {
  import opened Wrappers
  import opened Text
  import opened Domain
  import opened Queries
  import opened Loans

  /** The `ValidationError`s these forms raise. */
  datatype FormError =
    | MissingCode
    | UnknownCode
    | NotAvailable
    | HigherNeedsCareerAndYear
    | NoOpenLoan
    | CodeTooLong
    | BadJoinCode

  /** The cleaned fields of `PrestamoRapidoForm`; an empty `code` is a missing
      one, an empty programme or year choice is `None`. */
  datatype QuickLoanInput = QuickLoanInput(
    code: string, level: Level, career: Option<Career>, year: Option<Year>,
    shift: Shift, classroom: string, requester: string)

  /** `PrestamoRapidoForm.clean`: the item, or the first failing check in source order. */
  function QuickLoanClean(s: Store, f: QuickLoanInput): (r: Result<ItemId, FormError>)
    requires Valid(s)
    ensures r.Success? <==>
      && f.code != ""
      && ItemByCode(s, f.code).Some?
      && s.items[ItemByCode(s, f.code).value].state == Available
      && (f.level == Higher ==> f.career.Some? && f.year.Some?)
    ensures r.Success? ==> r.value < |s.items| && s.items[r.value].code == f.code && s.items[r.value].state == Available
    ensures f.code == "" ==> r == Failure(MissingCode)
    ensures f.code != "" && ItemByCode(s, f.code).None? ==> r == Failure(UnknownCode)
    ensures r == Failure(HigherNeedsCareerAndYear) ==> f.level == Higher
  {
    if f.code == "" then Failure(MissingCode)
    else match ItemByCode(s, f.code)
      case None => Failure(UnknownCode)
      case Some(j) =>
        if s.items[j].state != Available then Failure(NotAvailable)
        else if f.level == Higher && (f.career.None? || f.year.None?) then Failure(HigherNeedsCareerAndYear)
        else Success(j)
  }

  /** `PrestamoRapidoForm.save`: one loan with no expected end, written through
      `Prestamo.save`, and the item goes in use. */
  function QuickLoanSave(s: Store, f: QuickLoanInput, j: ItemId, now: Time): (r: (Store, LoanId))
    requires Valid(s) && QuickLoanClean(s, f) == Success(j)
    ensures Valid(r.0)
    ensures r.1 == |s.loans|
    ensures r.0.loans == s.loans + [Saved(OpenLoan(j, f.level, f.career, f.year, f.shift, f.classroom, f.requester, now))]
    ensures r.0.loans[r.1].expectedEnd.None? && r.0.loans[r.1].actualEnd.None?
    ensures |r.0.items| == |s.items| && r.0.items[j] == s.items[j].(state := InUse)
    ensures forall k :: 0 <= k < |s.items| && k != j ==> r.0.items[k] == s.items[k]
    ensures r.0.reservations == s.reservations
  {
    var (s1, id) := CreateLoan(s, OpenLoan(j, f.level, f.career, f.year, f.shift, f.classroom, f.requester, now));
    (WithItemState(s1, j, InUse), id)
  }

  /** The `code` field of `DevolucionForm`, a `CharField(max_length=10)`: the
      typed value stripped of blanks; empty is missing, and more than ten
      characters is too long. */
  function ReturnCodeField(typed: string): (r: Result<string, FormError>)
    ensures r.Success? <==> Strip(typed) != "" && |Strip(typed)| <= 10
    ensures r.Success? ==> r.value == Strip(typed)
    ensures Strip(typed) == "" ==> r == Failure(MissingCode)
    ensures |Strip(typed)| > 10 ==> r == Failure(CodeTooLong)
  {
    var c := Strip(typed);
    if c == "" then Failure(MissingCode)
    else if |c| > 10 then Failure(CodeTooLong)
    else Success(c)
  }

  /** A code of at most ten characters with no blank at either end is accepted
      as it is, typed bare or with any blanks around it. */
  lemma ReturnCodeFieldAcceptsPadded(pad: string, c: string)
    requires forall k :: 0 <= k < |pad| ==> IsSpace(pad[k])
    requires c != "" && |c| <= 10 && !IsSpace(c[0]) && !IsSpace(c[|c| - 1])
    ensures ReturnCodeField(pad + c + pad) == Success(c)
    ensures ReturnCodeField(c) == Success(c)
  {
    StripPadded(pad, c);
    StripNoBlanks(c);
  }

  /** `DevolucionForm.clean`: the most recently started open loan of the item
      with exactly this code. */
  function ReturnClean(s: Store, code: string): (r: Result<LoanId, FormError>)
    ensures r.Failure? <==> forall i :: 0 <= i < |s.loans| ==> !IsOpenLoanFor(s, s.loans[i], code)
    ensures r.Failure? ==> r.error == NoOpenLoan
    ensures r.Success? ==> r.value < |s.loans| && IsOpenLoanFor(s, s.loans[r.value], code)
    ensures r.Success? ==> forall i :: 0 <= i < |s.loans| && IsOpenLoanFor(s, s.loans[i], code) ==>
              s.loans[i].start <= s.loans[r.value].start
  {
    match LatestOpenLoanFor(s, code)
    case None => Failure(NoOpenLoan)
    case Some(id) => Success(id)
  }

  /** `DevolucionForm.save`: closes exactly the loan `clean` selected. */
  function ReturnSave(s: Store, code: string, id: LoanId, now: Time): (r: Store)
    requires Valid(s) && ReturnClean(s, code) == Success(id)
    ensures Valid(r)
    ensures |r.loans| == |s.loans| && |r.items| == |s.items|
    ensures r.loans[id].status == Returned && r.loans[id].actualEnd == Some(now)
    ensures r.loans[id].duration == Some(Clock.RoundHundredths(now - s.loans[id].start))
    ensures r.items[s.loans[id].item].state == Available
    ensures r.items[s.loans[id].item].uses == s.items[s.loans[id].item].uses + 1
    ensures r.items[s.loans[id].item].hours ==
              s.items[s.loans[id].item].hours + Clock.RoundHundredths(now - s.loans[id].start)
    ensures forall j :: 0 <= j < |s.items| && j != s.loans[id].item ==> r.items[j] == s.items[j]
    ensures r.reservations == s.reservations
    ensures forall k :: 0 <= k < |s.loans| && k != id ==> r.loans[k] == s.loans[k]
  {
    Close(s, id, now)
  }

  /** The three join codes read from the settings, one per level. */
  datatype JoinCodes = JoinCodes(secondary: string, higher: string, staff: string)

  /** The values the settings fall back to when the environment sets none. */
  const DefaultJoinCodes: JoinCodes := JoinCodes("SEC-123", "SUP-123", "STAFF-123")

  function CodeFor(codes: JoinCodes, level: Level): string {
    match level
    case Secondary => codes.secondary
    case Higher => codes.higher
    case Staff => codes.staff
  }

  /** The level-specific fields of `SignupForm`; account fields are not modelled. */
  datatype SignupInput = SignupInput(level: Level, career: Option<Career>, year: Option<Year>, joinCode: string)

  /** `SignupForm.clean`: the stripped join code must be the one configured
      for the chosen level, and Superior needs programme and year. */
  function SignupClean(codes: JoinCodes, f: SignupInput): (r: Result<SignupInput, FormError>)
    ensures r.Success? <==>
      && Strip(f.joinCode) == CodeFor(codes, f.level)
      && (f.level == Higher ==> f.career.Some? && f.year.Some?)
    ensures r.Success? ==> r.value == f
    ensures Strip(f.joinCode) != CodeFor(codes, f.level) ==> r == Failure(BadJoinCode)
  {
    var code := Strip(f.joinCode);
    var ok := (f.level == Secondary && code == codes.secondary)
              || (f.level == Higher && code == codes.higher)
              || (f.level == Staff && code == codes.staff);
    if !ok then Failure(BadJoinCode)
    else if f.level == Higher && (f.career.None? || f.year.None?) then Failure(HigherNeedsCareerAndYear)
    else Success(f)
  }

  /** The permission groups sign-up assigns. */
  datatype Group = StudentSecondary | StudentHigher | StaffGroup

  datatype Profile = Profile(level: Level, career: Option<Career>, year: Option<Year>)

  /** `SignupForm.save`, applied to the profile created with the user: the
      level is always set, programme and year only for Superior, and the group
      follows the level. */
  function SignupSave(base: Profile, f: SignupInput): (r: (Profile, Group))
    ensures r.0.level == f.level
    ensures f.level == Higher ==> r.0.career == f.career && r.0.year == f.year
    ensures f.level != Higher ==> r.0.career == base.career && r.0.year == base.year
    ensures r.1 == StudentHigher <==> f.level == Higher
    ensures r.1 == StaffGroup <==> f.level == Staff
    ensures r.1 == StudentSecondary <==> f.level == Secondary
  {
    var p := if f.level == Higher then Profile(Higher, f.career, f.year) else base.(level := f.level);
    var g := match p.level
      case Higher => StudentHigher
      case Staff => StaffGroup
      case Secondary => StudentSecondary;
    (p, g)
  }

  /** Each level accepts its own configured code, surrounded by any blanks;
      a Superior applicant also needs programme and year. */
  lemma {:induction false} SignupAcceptsOwnCode(codes: JoinCodes, f: SignupInput, pad: string)
    requires forall k :: 0 <= k < |pad| ==> IsSpace(pad[k])
    requires CodeFor(codes, f.level) != "" && !IsSpace(CodeFor(codes, f.level)[0])
    requires !IsSpace(CodeFor(codes, f.level)[|CodeFor(codes, f.level)| - 1])
    requires f.joinCode == pad + CodeFor(codes, f.level) + pad
    requires f.level == Higher ==> f.career.Some? && f.year.Some?
    ensures SignupClean(codes, f) == Success(f)
  {
    StripPadded(pad, CodeFor(codes, f.level));
  }

  /** Blanks around a word with non-blank ends are all that `Strip` removes. */
  lemma {:induction false} StripPadded(pad: string, w: string)
    requires forall k :: 0 <= k < |pad| ==> IsSpace(pad[k])
    requires w != "" && !IsSpace(w[0]) && !IsSpace(w[|w| - 1])
    ensures Strip(pad + w + pad) == w
  {
    TrimStartPadded(pad, w + pad);
    assert pad + w + pad == pad + (w + pad);
    TrimEndPadded(w, pad);
  }

  lemma {:induction false} TrimStartPadded(pad: string, rest: string)
    requires forall k :: 0 <= k < |pad| ==> IsSpace(pad[k])
    requires rest != "" && !IsSpace(rest[0])
    ensures TrimStart(pad + rest) == rest
  {
    if pad != [] {
      assert (pad + rest)[1..] == pad[1..] + rest;
      TrimStartPadded(pad[1..], rest);
    }
  }

  lemma {:induction false} TrimEndPadded(w: string, pad: string)
    requires forall k :: 0 <= k < |pad| ==> IsSpace(pad[k])
    requires w != "" && !IsSpace(w[|w| - 1])
    ensures TrimEnd(w + pad) == w
  {
    if pad != [] {
      var p' := pad[..|pad| - 1];
      assert (w + pad)[..|w + pad| - 1] == w + p';
      TrimEndPadded(w, p');
    }
  }

  /** With the default settings, a Secundario applicant typing "SEC-123" is
      accepted and lands in the secondary-student group. */
  lemma DefaultSecondarySignup(base: Profile)
    ensures var f := SignupInput(Secondary, None, None, "SEC-123");
      && SignupClean(DefaultJoinCodes, f) == Success(f)
      && SignupSave(base, f).1 == StudentSecondary
  {
    SignupAcceptsOwnCode(DefaultJoinCodes, SignupInput(Secondary, None, None, "SEC-123"), "");
  }
}

=== FILE: invariants.dfy ===
/** Store-wide invariants that every write path keeps, and the frame every
    write path respects. Each primitive operation gets its own preservation
    lemma; the system module combines them. */
module Invariants {
  import opened Wrappers
  import opened Domain
  import opened Clock
  import opened Loans
  import opened Reservations

  /** A loan record as `save` and `cerrar` leave it: Superior loans are in the
      night shift, "activo" exactly while there is no end, and a recorded end
      comes with its rounded duration. */
  predicate LoanShape(l: Loan) {
    && (l.level == Higher ==> l.shift == Night)
    && (l.status == Open <==> l.actualEnd.None?)
    && (l.actualEnd.None? <==> l.duration.None?)
    && (l.actualEnd.Some? ==> l.duration == Some(RoundHundredths(l.actualEnd.value - l.start)))
  }

  /** An "activa" reservation has no approval or cancellation recorded, and a
      cancelled one records when. */
  predicate ReservationShape(x: Reservation) {
    && (x.status == Active ==>
          x.approvedBy.None? && x.approvedAt.None? && x.cancelledBy.None? && x.cancelledAt.None?)
    && (x.status == Cancelled ==> x.cancelledAt.Some?)
  }

  /** Every open loan holds its item in use, and no item has two open loans. */
  predicate OpenLoansHeld(s: Store)
    requires Valid(s)
  {
    && (forall i :: 0 <= i < |s.loans| && s.loans[i].actualEnd.None? ==> s.items[s.loans[i].item].state == InUse)
    && (forall i, k :: 0 <= i < k < |s.loans| && s.loans[i].actualEnd.None? && s.loans[k].actualEnd.None? ==>
          s.loans[i].item != s.loans[k].item)
  }

  predicate Inv(s: Store) {
    && Valid(s)
    && (forall i :: 0 <= i < |s.loans| ==> LoanShape(s.loans[i]))
    && (forall i :: 0 <= i < |s.reservations| ==> ReservationShape(s.reservations[i]))
    && OpenLoansHeld(s)
  }

  /** How a store may evolve: items are never added or removed and keep code
      and kind, their use count never drops; loans and reservations are only
      appended; a returned loan and a terminal reservation are never touched
      again, and a loan keeps its item and start. */
  predicate Evolves(s: Store, r: Store) {
    && |r.items| == |s.items|
    && (forall j :: 0 <= j < |s.items| ==>
          r.items[j].code == s.items[j].code && r.items[j].kind == s.items[j].kind && r.items[j].uses >= s.items[j].uses)
    && |r.loans| >= |s.loans| && |r.reservations| >= |s.reservations|
    && (forall i :: 0 <= i < |s.loans| ==> r.loans[i].item == s.loans[i].item && r.loans[i].start == s.loans[i].start)
    && (forall i :: 0 <= i < |s.loans| && s.loans[i].actualEnd.Some? ==> r.loans[i] == s.loans[i])
    && (forall i :: 0 <= i < |s.reservations| && s.reservations[i].status != Active ==>
          r.reservations[i] == s.reservations[i])
  }

  lemma EvolvesReflexive(s: Store)
    ensures Evolves(s, s)
  {
  }

  lemma EvolvesTransitive(a: Store, b: Store, c: Store)
    requires Evolves(a, b) && Evolves(b, c)
    ensures Evolves(a, c)
  {
  }

  /** Closing a loan keeps the invariant: its item was held only by it. */
  lemma CloseKeeps(s: Store, id: LoanId, when: Time)
    requires Inv(s) && id < |s.loans|
    ensures Inv(Close(s, id, when)) && Evolves(s, Close(s, id, when))
  {
    var r := Close(s, id, when);
    if s.loans[id].actualEnd.None? {
      var j := s.loans[id].item;
      forall i | 0 <= i < |r.loans| && r.loans[i].actualEnd.None?
        ensures r.items[r.loans[i].item].state == InUse
      {
        assert i != id;
        if s.loans[i].item == j {
          if i < id { assert false; } else { assert false; }
        }
      }
      assert forall i :: 0 <= i < |r.loans| ==> LoanShape(r.loans[i]);
    }
  }

  /** Setting an item that no open loan holds to a state other than in-use
      keeps the invariant. */
  lemma FreeItemStateKeeps(s: Store, j: ItemId, state: ItemState)
    requires Inv(s) && j < |s.items| && s.items[j].state != InUse && state != InUse
    ensures Inv(WithItemState(s, j, state)) && Evolves(s, WithItemState(s, j, state))
  {
  }

  lemma ReleaseKeeps(s: Store, item: Option<ItemId>)
    requires Inv(s) && (item.Some? ==> item.value < |s.items|)
    ensures Inv(Release(s, item)) && Evolves(s, Release(s, item))
  {
    if item.Some? && s.items[item.value].state == Reserved {
      FreeItemStateKeeps(s, item.value, Available);
    }
  }

  /** Replacing an "activa" reservation by a well-formed one keeps the
      invariant and the frame. */
  lemma ActiveReplacedKeeps(s: Store, id: ReservationId, x: Reservation)
    requires Inv(s) && id < |s.reservations| && s.reservations[id].status == Active
    requires ReservationShape(x) && x.item == s.reservations[id].item
    ensures var r := s.(reservations := s.reservations[id := x]);
      Inv(r) && Evolves(s, r)
  {
  }

  lemma ExpireKeeps(s: Store, id: ReservationId)
    requires Inv(s) && id < |s.reservations|
    ensures Inv(Expire(s, id)) && Evolves(s, Expire(s, id))
  {
    var x := s.reservations[id];
    if x.status == Active {
      var s1 := s.(reservations := s.reservations[id := x.(status := Expired)]);
      ActiveReplacedKeeps(s, id, x.(status := Expired));
      ReleaseKeeps(s1, x.item);
      EvolvesTransitive(s, s1, Release(s1, x.item));
    }
  }

  lemma CancelKeeps(s: Store, id: ReservationId, canceller: Option<User>, reason: string, now: Time)
    requires Inv(s) && id < |s.reservations|
    ensures Inv(Cancel(s, id, canceller, reason, now)) && Evolves(s, Cancel(s, id, canceller, reason, now))
  {
    var x := s.reservations[id];
    if x.status == Active {
      var x' := x.(status := Cancelled, cancelledBy := canceller, cancelledAt := Some(now), cancelReason := reason);
      var s1 := s.(reservations := s.reservations[id := x']);
      ActiveReplacedKeeps(s, id, x');
      ReleaseKeeps(s1, x.item);
      EvolvesTransitive(s, s1, Release(s1, x.item));
    }
  }

  /** Opening a loan on an item that is not in use, and putting the item in
      use, keeps the invariant: no other open loan can hold that item. */
  lemma NewLoanKeeps(s: Store, l: Loan)
    requires Inv(s) && l.item < |s.items| && s.items[l.item].state != InUse
    requires l.status == Open && l.actualEnd.None? && l.duration.None?
    ensures var r := WithItemState(CreateLoan(s, l).0, l.item, InUse);
      Inv(r) && Evolves(s, r)
  {
    var r := WithItemState(CreateLoan(s, l).0, l.item, InUse);
    var n := |s.loans|;
    assert r.loans[n] == Saved(l);
    forall i, k | 0 <= i < k < |r.loans| && r.loans[i].actualEnd.None? && r.loans[k].actualEnd.None?
      ensures r.loans[i].item != r.loans[k].item
    {
      if k == n {
        assert s.items[s.loans[i].item].state == InUse;
      }
    }
  }

  /** Reserving an available item: a new "activa" reservation is appended and
      the item becomes Reservado. */
  lemma NewReservationKeeps(s: Store, x: Reservation, j: ItemId)
    requires Inv(s) && j < |s.items| && s.items[j].state == Available
    requires x.item == Some(j) && x.status == Active && ReservationShape(x)
    ensures var r := WithItemState(s.(reservations := s.reservations + [x]), j, Reserved);
      Inv(r) && Evolves(s, r)
  {
    var s1 := s.(reservations := s.reservations + [x]);
    assert Inv(s1) && Evolves(s, s1);
    FreeItemStateKeeps(s1, j, Reserved);
    EvolvesTransitive(s, s1, WithItemState(s1, j, Reserved));
  }

  lemma ApproveKeeps(s: Store, id: ReservationId, approver: User, now: Time)
    requires Inv(s) && id < |s.reservations|
    ensures Inv(ApproveAndConvert(s, id, approver, now).0) && Evolves(s, ApproveAndConvert(s, id, approver, now).0)
  {
    var x := s.reservations[id];
    if Convertible(s, x) {
      var j := x.item.value;
      var x' := x.(status := Converted, approvedBy := Some(approver), approvedAt := Some(now));
      var s1 := s.(reservations := s.reservations[id := x']);
      ActiveReplacedKeeps(s, id, x');
      var l := OpenLoan(j, x.level, None, None, x.shift, x.classroom, x.requester, now);
      NewLoanKeeps(s1, l);
      EvolvesTransitive(s, s1, WithItemState(CreateLoan(s1, l).0, j, InUse));
    }
  }
}

=== FILE: loans.dfy ===
/** `Prestamo`: creation through `save` and closing through `cerrar`. */
module Loans {
  import opened Wrappers
  import opened Domain
  import opened Clock

  /** `Prestamo.save`: the institutional rule "Superior means the night shift"
      applied to the record being written; nothing else is touched. */
  function Saved(l: Loan): (r: Loan)
    ensures r.level == Higher ==> r.shift == Night
    ensures r.level != Higher ==> r == l
    ensures r == l.(shift := r.shift)
  {
    if l.level == Higher then l.(shift := Night) else l
  }

  /** The record `Prestamo.objects.create(..., fin_prevista=None)` builds: started
      now, no expected or actual end, no duration, status "activo". */
  function OpenLoan(item: ItemId, level: Level, career: Option<Career>, year: Option<Year>,
                    shift: Shift, classroom: string, requester: string, now: Time): (l: Loan)
    ensures l.item == item && l.start == now && l.status == Open
    ensures l.expectedEnd.None? && l.actualEnd.None? && l.duration.None?
  {
    Loan(item, level, career, year, shift, classroom, requester, now, None, None, None, Open)
  }

  /** `Prestamo.objects.create`: appends the saved record under the next id. */
  function CreateLoan(s: Store, l: Loan): (r: (Store, LoanId))
    requires Valid(s) && l.item < |s.items|
    ensures Valid(r.0)
    ensures r.1 == |s.loans| && r.0.loans == s.loans + [Saved(l)]
    ensures r.0.items == s.items && r.0.reservations == s.reservations
  {
    (s.(loans := s.loans + [Saved(l)]), |s.loans|)
  }

  /** `Prestamo.cerrar(cuando)`. A loan that already has an end is left alone,
      and so is its item. Otherwise the loan records the end, the duration
      rounded to hundredths of an hour and status "devuelto", and its item gains
      exactly one use and exactly that duration, and becomes available whatever
      state it was in. Nothing else changes. */
  function Close(s: Store, id: LoanId, when: Time): (r: Store)
    requires Valid(s) && id < |s.loans|
    ensures Valid(r)
    ensures |r.loans| == |s.loans| && |r.items| == |s.items| && r.reservations == s.reservations
    ensures s.loans[id].actualEnd.Some? ==> r == s
    ensures s.loans[id].actualEnd.None? ==>
      var l := s.loans[id];
      var d := RoundHundredths(when - l.start);
      && r.loans[id] == l.(actualEnd := Some(when), duration := Some(d), status := Returned)
      && r.items[l.item] == s.items[l.item].(hours := s.items[l.item].hours + d,
                                             uses := s.items[l.item].uses + 1,
                                             state := Available)
    ensures forall k :: 0 <= k < |s.loans| && k != id ==> r.loans[k] == s.loans[k]
    ensures forall j :: 0 <= j < |s.items| && j != s.loans[id].item ==> r.items[j] == s.items[j]
  {
    var l := s.loans[id];
    if l.actualEnd.Some? then s
    else
      var d := RoundHundredths(when - l.start);
      var it := s.items[l.item];
      var it' := it.(hours := it.hours + d, uses := it.uses + 1, state := Available);
      var l' := l.(actualEnd := Some(when), duration := Some(d), status := Returned);
      Store(s.items[l.item := it'], s.loans[id := l'], s.reservations)
  }

  /** Closing is idempotent: a second close, at any time, changes nothing, so
      the duration is computed exactly once. */
  lemma CloseIdempotent(s: Store, id: LoanId, first: Time, second: Time)
    requires Valid(s) && id < |s.loans|
    ensures Close(Close(s, id, first), id, second) == Close(s, id, first)
  {
  }

  /** A loan started at `t` and closed two hours later lasts 2.00 hours, and
      its item's use grows by 2.00 hours and one use. */
  lemma CloseTwoHours(s: Store, id: LoanId)
    requires Valid(s) && id < |s.loans| && s.loans[id].actualEnd.None?
    ensures var r := Close(s, id, s.loans[id].start + 2 * Hour);
      && r.loans[id].duration == Some(200)
      && r.loans[id].status == Returned
      && r.items[s.loans[id].item].hours == s.items[s.loans[id].item].hours + 200
      && r.items[s.loans[id].item].uses == s.items[s.loans[id].item].uses + 1
      && r.items[s.loans[id].item].state == Available
  {
    RoundHundredthsExact(200);
  }
}

=== FILE: queries.dfy ===
/** The ORM queries the core issues, as searches over the store's sequences.
    `.first()` on an unordered queryset is the match with the smallest id;
    `latest("inicio")` and `order_by("-inicio").first()` are the match with the
    greatest start time, the later id winning a tie. */
module Queries {
  import opened Wrappers
  import opened Text
  import opened Domain

  /** The smallest index whose element satisfies `p`. */
  function FirstIndex<T>(xs: seq<T>, p: T -> bool): (r: Option<nat>)
    ensures r.Some? ==> r.value < |xs| && p(xs[r.value])
    ensures r.Some? ==> forall i :: 0 <= i < r.value ==> !p(xs[i])
    ensures r.None? ==> forall i :: 0 <= i < |xs| ==> !p(xs[i])
    decreases |xs|
  {
    if |xs| == 0 then None
    else if p(xs[0]) then Some(0)
    else match FirstIndex(xs[1..], p)
      case None => None
      case Some(k) => Some(k + 1)
  }

  /** An index satisfying `p` whose `key` is greatest; among equal keys, the last one. */
  function LatestIndex<T>(xs: seq<T>, p: T -> bool, key: T -> int): (r: Option<nat>)
    ensures r.Some? ==> r.value < |xs| && p(xs[r.value])
    ensures r.Some? ==> forall i :: 0 <= i < |xs| && p(xs[i]) ==> key(xs[i]) <= key(xs[r.value])
    ensures r.Some? ==> forall i :: r.value < i < |xs| && p(xs[i]) ==> key(xs[i]) < key(xs[r.value])
    ensures r.None? ==> forall i :: 0 <= i < |xs| ==> !p(xs[i])
    decreases |xs|
  {
    if |xs| == 0 then None
    else
      var n := |xs| - 1;
      var rest := LatestIndex(xs[..n], p, key);
      if p(xs[n]) && (rest.None? || key(xs[rest.value]) <= key(xs[n])) then Some(n)
      else rest
  }

  /** `Item.objects.get(code=code)`: codes are unique, so at most one item matches. */
  function ItemByCode(s: Store, code: string): (r: Option<ItemId>)
    requires Valid(s)
    ensures r.Some? ==> r.value < |s.items| && s.items[r.value].code == code
    ensures r.Some? ==> forall j :: 0 <= j < |s.items| && s.items[j].code == code ==> j == r.value
    ensures r.None? ==> forall j :: 0 <= j < |s.items| ==> s.items[j].code != code
  {
    FirstIndex(s.items, (it: Item) => it.code == code)
  }

  /** `Item.objects.get(code__iexact=code)`: the first item whose code equals
      `code` up to letter case. */
  function ItemByCodeIgnoringCase(s: Store, code: string): (r: Option<ItemId>)
    ensures r.Some? ==> r.value < |s.items| && Lower(s.items[r.value].code) == Lower(code)
    ensures r.Some? ==> forall j :: 0 <= j < r.value ==> Lower(s.items[j].code) != Lower(code)
    ensures r.None? ==> forall j :: 0 <= j < |s.items| ==> Lower(s.items[j].code) != Lower(code)
  {
    FirstIndex(s.items, (it: Item) => Lower(it.code) == Lower(code))
  }

  predicate IsActiveOf(r: Reservation, user: User) {
    r.requester == user && r.status == Active
  }

  /** `Reserva.objects.filter(solicitante=user, estado="activa").exists()`. */
  predicate HasActiveReservation(s: Store, user: User) {
    exists i :: 0 <= i < |s.reservations| && IsActiveOf(s.reservations[i], user)
  }

  /** `Reserva.objects.filter(solicitante=user, estado="activa").first()`. */
  function FirstActiveReservationOf(s: Store, user: User): (r: Option<ReservationId>)
    ensures r.Some? ==> r.value < |s.reservations| && IsActiveOf(s.reservations[r.value], user)
    ensures r.Some? ==> forall k :: 0 <= k < r.value ==> !IsActiveOf(s.reservations[k], user)
    ensures r.None? <==> !HasActiveReservation(s, user)
  {
    FirstIndex(s.reservations, (x: Reservation) => IsActiveOf(x, user))
  }

  /** `Prestamo.objects.filter(item=it, solicitante=user, fin_real__isnull=True).first()`. */
  function FirstOpenLoanOf(s: Store, item: ItemId, user: User): (r: Option<LoanId>)
    ensures r.Some? ==> r.value < |s.loans|
    ensures r.Some? ==> var l := s.loans[r.value]; l.item == item && l.requester == user && l.actualEnd.None?
    ensures r.Some? ==> forall k :: 0 <= k < r.value ==>
              !(s.loans[k].item == item && s.loans[k].requester == user && s.loans[k].actualEnd.None?)
    ensures r.None? ==> forall i :: 0 <= i < |s.loans| ==>
              !(s.loans[i].item == item && s.loans[i].requester == user && s.loans[i].actualEnd.None?)
  {
    FirstIndex(s.loans, (l: Loan) => l.item == item && l.requester == user && l.actualEnd.None?)
  }

  predicate IsOpenLoanFor(s: Store, l: Loan, code: string) {
    l.actualEnd.None? && l.item < |s.items| && s.items[l.item].code == code
  }

  /** `Prestamo.objects.filter(item__code=code, fin_real__isnull=True).latest("inicio")`. */
  function LatestOpenLoanFor(s: Store, code: string): (r: Option<LoanId>)
    ensures r.Some? ==> r.value < |s.loans| && IsOpenLoanFor(s, s.loans[r.value], code)
    ensures r.Some? ==> forall i :: 0 <= i < |s.loans| && IsOpenLoanFor(s, s.loans[i], code) ==>
              s.loans[i].start <= s.loans[r.value].start
    ensures r.None? ==> forall i :: 0 <= i < |s.loans| ==> !IsOpenLoanFor(s, s.loans[i], code)
  {
    LatestIndex(s.loans, (l: Loan) => IsOpenLoanFor(s, l, code), (l: Loan) => l.start)
  }

  predicate IsActiveOn(r: Reservation, item: ItemId) {
    r.item == Some(item) && r.status == Active
  }

  /** `Reserva.objects.filter(item=it, estado="activa").order_by("-inicio").first()`. */
  function LatestActiveReservationOn(s: Store, item: ItemId): (r: Option<ReservationId>)
    ensures r.Some? ==> r.value < |s.reservations| && IsActiveOn(s.reservations[r.value], item)
    ensures r.Some? ==> forall i :: 0 <= i < |s.reservations| && IsActiveOn(s.reservations[i], item) ==>
              s.reservations[i].created <= s.reservations[r.value].created
    ensures r.None? ==> forall i :: 0 <= i < |s.reservations| ==> !IsActiveOn(s.reservations[i], item)
  {
    LatestIndex(s.reservations, (x: Reservation) => IsActiveOn(x, item), (x: Reservation) => x.created)
  }

  predicate IsAvailableOfKind(it: Item, kind: ItemKind) {
    it.kind == kind && it.state == Available
  }

  /** `Item.objects.filter(tipo=kind, estado=DISP).order_by("code").first()`, over
      the first `n` items. */
  function LeastAvailableCode(items: seq<Item>, kind: ItemKind, n: nat): (r: Option<ItemId>)
    requires n <= |items|
    ensures r.Some? ==> r.value < n && IsAvailableOfKind(items[r.value], kind)
    ensures r.Some? ==> forall j :: 0 <= j < n && IsAvailableOfKind(items[j], kind) ==>
              LexLe(items[r.value].code, items[j].code)
    ensures r.None? ==> forall j :: 0 <= j < n ==> !IsAvailableOfKind(items[j], kind)
    decreases n
  {
    if n == 0 then None
    else
      var rest := LeastAvailableCode(items, kind, n - 1);
      var last := items[n - 1];
      if !IsAvailableOfKind(last, kind) then rest
      else if rest.None? then Some(n - 1)
      else if LexLess(last.code, items[rest.value].code) then
        LeastBelow(items, kind, n - 1, rest.value);
        Some(n - 1)
      else
        (if last.code != items[rest.value].code then LexLessTotal(last.code, items[rest.value].code); rest
         else rest)
  }

  /** A code below the least code of a prefix is below every code in it. */
  lemma LeastBelow(items: seq<Item>, kind: ItemKind, n: nat, m: nat)
    requires n < |items| && m < n
    requires LexLess(items[n].code, items[m].code)
    requires forall j :: 0 <= j < n && IsAvailableOfKind(items[j], kind) ==> LexLe(items[m].code, items[j].code)
    ensures forall j :: 0 <= j < n && IsAvailableOfKind(items[j], kind) ==> LexLe(items[n].code, items[j].code)
  {
    forall j | 0 <= j < n && IsAvailableOfKind(items[j], kind)
      ensures LexLe(items[n].code, items[j].code)
    {
      if items[m].code != items[j].code {
        LexLessTransitive(items[n].code, items[m].code, items[j].code);
      }
    }
  }
}

=== FILE: reservations.dfy ===
/** `Reserva`: the one-way life cycle from "activa" to one terminal status. */
module Reservations {
  import opened Wrappers
  import opened Domain
  import opened Loans

  /** The defensive release after a reservation ends: its item goes back to
      Available only when it is still Reserved. */
  function Release(s: Store, item: Option<ItemId>): (r: Store)
    requires Valid(s) && (item.Some? ==> item.value < |s.items|)
    ensures Valid(r)
    ensures |r.items| == |s.items| && r.loans == s.loans && r.reservations == s.reservations
    ensures forall j :: 0 <= j < |s.items| ==>
      r.items[j] == (if item == Some(j) && s.items[j].state == Reserved
                     then s.items[j].(state := Available) else s.items[j])
  {
    if item.Some? && s.items[item.value].state == Reserved
    then WithItemState(s, item.value, Available)
    else s
  }

  /** `Reserva.expirar`: only an "activa" reservation changes; it becomes
      "expirada" and nothing else about it is recorded. */
  function Expire(s: Store, id: ReservationId): (r: Store)
    requires Valid(s) && id < |s.reservations|
    ensures Valid(r)
    ensures |r.reservations| == |s.reservations| && |r.items| == |s.items| && r.loans == s.loans
    ensures s.reservations[id].status != Active ==> r == s
    ensures s.reservations[id].status == Active ==>
      && r.reservations == s.reservations[id := s.reservations[id].(status := Expired)]
      && r.items == Release(s, s.reservations[id].item).items
  {
    var x := s.reservations[id];
    if x.status != Active then s
    else Release(s.(reservations := s.reservations[id := x.(status := Expired)]), x.item)
  }

  /** `Reserva.cancelar(user, motivo)`: only an "activa" reservation changes; it
      becomes "cancelada" with canceller, time and reason recorded. */
  function Cancel(s: Store, id: ReservationId, canceller: Option<User>, reason: string, now: Time): (r: Store)
    requires Valid(s) && id < |s.reservations|
    ensures Valid(r)
    ensures |r.reservations| == |s.reservations| && |r.items| == |s.items| && r.loans == s.loans
    ensures s.reservations[id].status != Active ==> r == s
    ensures s.reservations[id].status == Active ==>
      && r.reservations == s.reservations[id := s.reservations[id].(
           status := Cancelled, cancelledBy := canceller, cancelledAt := Some(now), cancelReason := reason)]
      && r.items == Release(s, s.reservations[id].item).items
  {
    var x := s.reservations[id];
    if x.status != Active then s
    else
      var x' := x.(status := Cancelled, cancelledBy := canceller, cancelledAt := Some(now), cancelReason := reason);
      Release(s.(reservations := s.reservations[id := x']), x.item)
  }

  /** The refusal conditions of `aprobar_y_convertir`, in the order the source tests them. */
  predicate Convertible(s: Store, x: Reservation)
    requires Valid(s) && (x.item.Some? ==> x.item.value < |s.items|)
  {
    && x.status == Active
    && x.item.Some?
    && s.items[x.item.value].state in {Reserved, Available}
  }

  /** `Reserva.aprobar_y_convertir(user)`. A reservation that is not "activa",
      has no item, or whose item is neither Reserved nor Available is refused
      with no change at all. Otherwise it becomes "convertida" with approver and
      time, a loan is opened carrying its level, shift, classroom and requester
      but no programme or year, and the item goes in use. */
  function ApproveAndConvert(s: Store, id: ReservationId, approver: User, now: Time): (r: (Store, Option<LoanId>))
    requires Valid(s) && id < |s.reservations|
    ensures Valid(r.0)
    ensures !Convertible(s, s.reservations[id]) <==> r.1.None?
    ensures r.1.None? ==> r.0 == s
    ensures r.1.Some? ==>
      var x := s.reservations[id];
      var j := x.item.value;
      && r.1.value == |s.loans|
      && r.0.loans == s.loans + [Saved(OpenLoan(j, x.level, None, None, x.shift, x.classroom, x.requester, now))]
      && r.0.reservations == s.reservations[id := x.(status := Converted, approvedBy := Some(approver), approvedAt := Some(now))]
      && |r.0.items| == |s.items|
      && r.0.items[j] == s.items[j].(state := InUse)
      && (forall k :: 0 <= k < |s.items| && k != j ==> r.0.items[k] == s.items[k])
  {
    var x := s.reservations[id];
    if !Convertible(s, x) then (s, None)
    else
      var j := x.item.value;
      var s1 := s.(reservations := s.reservations[id := x.(status := Converted, approvedBy := Some(approver), approvedAt := Some(now))]);
      var (s2, loan) := CreateLoan(s1, OpenLoan(j, x.level, None, None, x.shift, x.classroom, x.requester, now));
      (WithItemState(s2, j, InUse), Some(loan))
  }

  /** Once terminal, a reservation is never changed again by expire, cancel or
      approve: each of them returns the store it was given. */
  lemma TerminalIsFinal(s: Store, id: ReservationId, canceller: Option<User>, reason: string, approver: User, now: Time)
    requires Valid(s) && id < |s.reservations| && s.reservations[id].status != Active
    ensures Expire(s, id) == s
    ensures Cancel(s, id, canceller, reason, now) == s
    ensures ApproveAndConvert(s, id, approver, now) == (s, None)
  {
  }
}

=== FILE: scenarios.dfy ===
/** Whole conversations and sequences of operations: a reservation booked
    through the chat message by message, the reserve-then-cancel round trip,
    the second confirmation on the same item, and the sweep freeing an
    overdue hold. */
module Scenarios {
  import opened Wrappers
  import opened Text
  import opened Domain
  import opened Clock
  import opened Queries
  import opened Reservations
  import opened Sweeper
  import opened ChatText
  import opened Chat
  import opened ChatProps

  /** `c` occurs nowhere in `s`. */
  predicate Lacks(s: string, c: char) {
    forall k :: 0 <= k < |s| ==> s[k] != c
  }

  /** A string without one of the pattern's characters does not contain it. */
  lemma {:induction false} LacksNoContain(s: string, p: string, i: nat)
    requires i < |p| && Lacks(s, p[i])
    ensures !Contains(s, p)
    decreases |s|
  {
    assert !StartsWith(s, p) by {
      if |p| <= |s| { assert s[..|p|][i] == s[i]; }
    }
    if |s| > 0 {
      LacksNoContain(s[1..], p, i);
    }
  }

  /** A string that lacks one of the pattern's characters does not start with it. */
  lemma LacksNoPrefix(t: string, p: string, i: nat)
    requires i < |p| && Lacks(t, p[i])
    ensures !StartsWith(t, p)
  {
    if |p| <= |t| { assert t[..|p|][i] == t[i]; }
  }

  /** Without a 'd' or a 'v', and without a 'g', neither "devolver" nor
      "entregar" occurs, so the return rung cannot fire. */
  lemma NoReturnVerb(s: string)
    requires (Lacks(s, 'd') || Lacks(s, 'v')) && Lacks(s, 'g')
    ensures ReturnCode(s).None?
  {
    forall k | 0 <= k <= |s|
      ensures ReturnCodeAt(s, k).None?
    {
      NoReturnVerbAt(s, k);
    }
  }

  lemma NoReturnVerbAt(s: string, k: nat)
    requires (Lacks(s, 'd') || Lacks(s, 'v')) && Lacks(s, 'g') && k <= |s|
    ensures ReturnCodeAt(s, k).None?
  {
    var dv, en := "devolver", "entregar";
    var t := s[k..];
    if Lacks(s, 'd') {
      assert Lacks(t, dv[0]);
      LacksNoPrefix(t, dv, 0);
    } else {
      assert Lacks(t, dv[2]);
      LacksNoPrefix(t, dv, 2);
    }
    assert Lacks(t, en[5]);
    LacksNoPrefix(t, en, 5);
  }

  /** Without a 'v' there is no "reserva", so the reserve rung cannot fire. */
  lemma NoReserveVerb(s: string)
    requires Lacks(s, 'v')
    ensures ReserveCode(s).None?
  {
    var rv := "reserva";
    forall k | 0 <= k <= |s|
      ensures ReserveCodeAt(s, k).None?
    {
      var t := s[k..];
      assert Lacks(t, rv[5]);
      LacksNoPrefix(t, rv, 5);
    }
  }

  /** A message with no Latin-1 letter whose lower-cased form has no blank at
      either end normalises to that form. */
  lemma NormOf(raw: string, msg: string)
    requires |raw| == |msg| && |msg| > 0
    requires forall k :: 0 <= k < |msg| ==> raw[k] as int < 0xC0 && msg[k] == LowerChar(raw[k])
    requires !IsSpace(msg[0]) && !IsSpace(msg[|msg| - 1])
    ensures Norm(raw) == msg
  {
    assert LowerFold(raw) == msg;
    StripNoBlanks(msg);
  }

  /** A message that passes every rung above the reserve rung and carries a
      reserve pattern lands there, whatever is pending. */
  lemma RouteToReserve(msg: string, code: string, pending: Option<Pending>)
    requires |msg| > 8 && !Contains(msg, "mis reservas")
    requires !Contains(msg, "mis prestamos") && !Contains(msg, "mis préstamos")
    requires !Contains(msg, "cancelar reserva") && !StartsWith(msg, "cambiar a ")
    requires ReturnCode(msg).None? && ReserveCode(msg) == Some(code)
    ensures RouteOf(msg, pending) == ToReserve(Upper(code))
  {
    assert msg != "menu" && msg != "menú" && msg != "cancelar";
  }

  /** "reservar NB-01" lands on the reserve rung with the code upper-cased. */
  lemma RouteReserveNb01(raw: string, pending: Option<Pending>)
    requires raw == "reservar NB-01"
    ensures RouteOf(Norm(raw), pending) == ToReserve("NB-01")
  {
    var msg := "reservar nb-01";
    NormOf(raw, msg);
    RouteReserveNormalised(msg, pending);
  }

  lemma RouteReserveNormalised(msg: string, pending: Option<Pending>)
    requires msg == "reservar nb-01"
    ensures RouteOf(msg, pending) == ToReserve("NB-01")
  {
    assert Lacks(msg, 'm') && Lacks(msg, 'c') && Lacks(msg, 'd') && Lacks(msg, 'g');
    LacksNoContain(msg, "mis reservas", 0);
    LacksNoContain(msg, "mis prestamos", 0);
    LacksNoContain(msg, "mis préstamos", 0);
    LacksNoContain(msg, "cancelar reserva", 0);
    assert !StartsWith(msg, "cambiar a ") by { assert msg[..10][0] == 'r'; }
    NoReturnVerb(msg);
    ReserveNb01Code(msg);
    RouteToReserve(msg, "nb-01", pending);
  }

  /** The code the reserve pattern extracts from "reservar nb-01". */
  lemma ReserveNb01Code(msg: string)
    requires msg == "reservar nb-01"
    ensures ReserveCode(msg) == Some("nb-01") && Upper("nb-01") == "NB-01"
  {
    var code := "nb-01";
    assert Upper(code) == "NB-01";
    assert IsCode(code);
    assert IsBlanks(" ");
    assert "reservar" + " " + code == msg;
    ReserveCodeRoundTrip(" ", code);
  }

  /** Message one, "reservar NB-01", with nothing pending: the reserve rung
      stages an intent on the first item whose code is NB-01 up to case. */
  lemma StepReserveNb01(s: Store, user: User, j: ItemId, raw: string, now: Time)
    requires Valid(s) && j < |s.items| && Lower(s.items[j].code) == "nb-01"
    requires forall k :: 0 <= k < j ==> Lower(s.items[k].code) != "nb-01"
    requires s.items[j].state == Available && !HasActiveReservation(s, user)
    requires raw == "reservar NB-01"
    ensures Step(s, Session(None), user, raw, now)
         == Turn(s, Session(Some(ReserveIntent("NB-01", j, s.items[j].kind, None, None, None, InferShift(now), None))),
                 AskLevel("NB-01", InferShift(now)))
  {
    RouteReserveNb01(raw, None);
    StepOnReserve(s, Session(None), user, raw, now, "NB-01");
    FindNb01(s, j, "NB-01");
  }

  /** The case-insensitive lookup of NB-01 finds the first matching item. */
  lemma FindNb01(s: Store, j: ItemId, code: string)
    requires j < |s.items| && Lower(s.items[j].code) == "nb-01"
    requires forall k :: 0 <= k < j ==> Lower(s.items[k].code) != "nb-01"
    requires code == "NB-01"
    ensures ItemByCodeIgnoringCase(s, code) == Some(j)
  {
    assert Lower(code) == "nb-01";
  }

  /** Everything that keeps a short answer off the rungs above completion:
      no command word fits in it and it holds neither verb. */
  lemma ShortAnswerReachesCompletion(msg: string, p: Pending)
    requires |msg| <= 10 && msg != "menu" && msg != "menú" && msg != "cancelar"
    requires !StartsWith(msg, "cambiar a ")
    requires Lacks(msg, 'v') && Lacks(msg, 'g')
    requires p.ReserveIntent? && NextField(p) != Ready
    ensures RouteOf(msg, Some(p)) == ToComplete
  {
    ShortNoContain(msg, "mis reservas");
    ShortNoContain(msg, "mis prestamos");
    ShortNoContain(msg, "mis préstamos");
    ShortNoContain(msg, "cancelar reserva");
    NoReturnVerb(msg);
    NoReserveVerb(msg);
  }

  /** "secundario" is such a short answer. */
  lemma SecundarioIsShortAnswer(msg: string)
    requires msg == "secundario"
    ensures |msg| <= 10 && msg != "menu" && msg != "menú" && msg != "cancelar"
    ensures !StartsWith(msg, "cambiar a ")
    ensures Lacks(msg, 'v') && Lacks(msg, 'g')
  {
    assert !StartsWith(msg, "cambiar a ") by { assert msg[..10][0] == 's'; }
  }

  /** "Secundario" with a question pending lands on the completion rung. */
  lemma RouteSecundario(raw: string, p: Pending)
    requires raw == "Secundario"
    requires p.ReserveIntent? && NextField(p) != Ready
    ensures RouteOf(Norm(raw), Some(p)) == ToComplete
  {
    var msg := "secundario";
    NormOf(raw, msg);
    SecundarioIsShortAnswer(msg);
    ShortAnswerReachesCompletion(msg, p);
  }

  /** "Secundario" mentions a level and parses as Secundario. */
  lemma ParseSecundario(raw: string)
    requires raw == "Secundario"
    ensures MentionsLevel(Norm(raw)) && ParseLevel(Norm(raw)) == Secondary
  {
    var msg := "secundario";
    NormOf(raw, msg);
    ParseSecundarioNormalised(msg);
  }

  lemma ParseSecundarioNormalised(msg: string)
    requires msg == "secundario"
    ensures MentionsLevel(msg) && ParseLevel(msg) == Secondary
  {
    NormOf(msg, msg);
    assert StartsWith(msg, "sec") by { assert msg[..3] == "sec"; }
    assert Contains(msg, "sec");
    NoDocente(msg);
    assert !StartsWith(msg, "sup") by { assert msg[..3][1] == 'e'; }
    assert !StartsWith(msg, "per") by { assert msg[..3][0] == 's'; }
  }

  /** Message two, "Secundario", answers the level question: the level is
      recorded and the classroom is asked next. */
  lemma StepSecundario(s: Store, p: Pending, user: User, raw: string, now: Time)
    requires Valid(s) && p.ReserveIntent? && NextField(p) == AwaitLevel
    requires raw == "Secundario"
    ensures Step(s, Session(Some(p)), user, raw, now)
         == Turn(s, Session(Some(p.(level := Some(Secondary)))), AskClassroom)
  {
    RouteSecundario(raw, p);
    StepOnComplete(s, Session(Some(p)), user, raw, now);
    ParseSecundario(raw);
  }

  /** Message three, "-", answers the classroom question with no classroom:
      "" is recorded and the summary is shown for confirmation. */
  lemma StepDash(s: Store, p: Pending, user: User, raw: string, now: Time)
    requires Valid(s) && p.ReserveIntent? && NextField(p) == AwaitClassroom
    requires raw == "-"
    ensures var q := p.(classroom := Some(""));
      Step(s, Session(Some(p)), user, raw, now) == Turn(s, Session(Some(q)), ConfirmReservation(q))
  {
    NormOf(raw, raw);
    assert Lacks(raw, 'v') && Lacks(raw, 'g');
    assert !StartsWith(raw, "cambiar a ");
    ShortAnswerReachesCompletion(raw, p);
    StepOnComplete(s, Session(Some(p)), user, raw, now);
    assert Strip(raw) == raw by { assert Lower(raw) == raw; }
  }

  /** Message four, "confirmo", with a complete reserve intent: the
      confirmation rung. */
  lemma StepConfirmo(s: Store, p: Pending, user: User, raw: string, now: Time)
    requires Valid(s) && p.ReserveIntent? && NextField(p) == Ready
    requires raw == "confirmo"
    ensures Step(s, Session(Some(p)), user, raw, now) == ConfirmReserve(s, p, user, now)
  {
    NormOf(raw, raw);
    RouteConfirmo(raw, p);
    StepOnConfirmReserve(s, Session(Some(p)), user, raw, now);
  }

  lemma RouteConfirmo(msg: string, p: Pending)
    requires msg == "confirmo" && p.ReserveIntent? && NextField(p) == Ready
    ensures RouteOf(msg, Some(p)) == ToConfirm
  {
    ShortNoContain(msg, "mis reservas");
    ShortNoContain(msg, "mis prestamos");
    ShortNoContain(msg, "mis préstamos");
    ShortNoContain(msg, "cancelar reserva");
    assert Lacks(msg, 'v') && Lacks(msg, 'g');
    NoReturnVerb(msg);
    NoReserveVerb(msg);
    assert IsConfirmation(msg);
  }

  /** The chat's own hint, "cambiar a mañana", moves a reservation in progress
      to the morning shift: the tilde is folded away before the shift word is
      read. */
  lemma HintMananaSetsMorning(s: Store, p: Pending, user: User, raw: string, now: Time)
    requires Valid(s) && p.ReserveIntent? && raw == "cambiar a mañana"
    ensures Step(s, Session(Some(p)), user, raw, now)
         == Turn(s, Session(Some(p.(shift := Morning))), ShiftUpdated(Morning))
  {
    NormHint(raw);
    RouteHintManana(Norm(raw), p);
    ParseManana();
    StepOnChangeShift(s, p, user, raw, now, "manana", Morning);
  }

  lemma NormHint(raw: string)
    requires raw == "cambiar a mañana"
    ensures Norm(raw) == "cambiar a manana"
  {
    assert LowerFold(raw) == "cambiar a manana";
    StripNoBlanks("cambiar a manana");
  }

  lemma ParseManana()
    ensures ParseShift("manana") == Some(Morning)
  {
    SettledNorm("manana");
    assert "manana"[..3] == "man";
  }

  lemma RouteHintManana(msg: string, p: Pending)
    requires msg == "cambiar a manana"
    ensures RouteOf(msg, Some(p)) == ToChangeShift("manana")
  {
    HintLacksListWords(msg);
    HintPrefix(msg);
    assert |msg| == 16;
  }

  lemma HintLacksListWords(msg: string)
    requires msg == "cambiar a manana"
    ensures !Contains(msg, "mis reservas") && !Contains(msg, "mis prestamos")
    ensures !Contains(msg, "mis préstamos") && !Contains(msg, "cancelar reserva")
  {
    HintLacksS(msg);
    LacksSNoContain(msg, "mis reservas", 2);
    LacksSNoContain(msg, "mis prestamos", 2);
    LacksSNoContain(msg, "mis préstamos", 2);
    LacksSNoContain(msg, "cancelar reserva", 11);
  }

  lemma LacksSNoContain(msg: string, w: string, i: nat)
    requires Lacks(msg, 's') && i < |w| && w[i] == 's'
    ensures !Contains(msg, w)
  {
    LacksNoContain(msg, w, i);
  }

  lemma HintLacksS(msg: string)
    requires msg == "cambiar a manana"
    ensures Lacks(msg, 's')
  {
  }

  lemma HintPrefix(msg: string)
    requires msg == "cambiar a manana"
    ensures StartsWith(msg, "cambiar a ") && RemoveAll(msg, "cambiar a ") == "manana"
  {
    assert msg[..10] == "cambiar a ";
    var rest := msg[10..];
    assert rest == "manana";
    assert RemoveAll(rest, "cambiar a ") == rest;
  }

  /** The intent the first three messages build: NB-01, Secundario, the shift
      inferred at the first message, no classroom. */
  function BookedIntent(s: Store, j: ItemId, t1: Time): Pending
    requires j < |s.items|
  {
    ReserveIntent("NB-01", j, s.items[j].kind, Some(Secondary), None, None, InferShift(t1), Some(""))
  }

  /** The first three messages, "reservar NB-01", "Secundario" and "-", ask
      for the level, then the classroom, then show the completed intent for
      confirmation; nothing is written yet. */
  lemma ConversationOpening(s: Store, user: User, j: ItemId, m1: string, m2: string, m3: string,
                            t1: Time, t2: Time, t3: Time)
    requires Valid(s) && j < |s.items| && Lower(s.items[j].code) == "nb-01"
    requires forall k :: 0 <= k < j ==> Lower(s.items[k].code) != "nb-01"
    requires s.items[j].state == Available && !HasActiveReservation(s, user)
    requires m1 == "reservar NB-01" && m2 == "Secundario" && m3 == "-"
    ensures var a := Step(s, Session(None), user, m1, t1);
      var b := Step(a.store, a.session, user, m2, t2);
      var c := Step(b.store, b.session, user, m3, t3);
      && a.reply == AskLevel("NB-01", InferShift(t1))
      && b.reply == AskClassroom
      && c == Turn(s, Session(Some(BookedIntent(s, j, t1))), ConfirmReservation(BookedIntent(s, j, t1)))
  {
    var a := Step(s, Session(None), user, m1, t1);
    StepReserveNb01(s, user, j, m1, t1);
    AnswersAfterOpening(s, user, j, t1, a, m2, m3, t2, t3);
  }

  /** Messages two and three, after "reservar NB-01" staged the intent. */
  lemma AnswersAfterOpening(s: Store, user: User, j: ItemId, t1: Time, a: Turn, m2: string, m3: string,
                            t2: Time, t3: Time)
    requires Valid(s) && j < |s.items|
    requires a == Turn(s, Session(Some(ReserveIntent("NB-01", j, s.items[j].kind, None, None, None, InferShift(t1), None))),
                       AskLevel("NB-01", InferShift(t1)))
    requires m2 == "Secundario" && m3 == "-"
    ensures var b := Step(a.store, a.session, user, m2, t2);
      var c := Step(b.store, b.session, user, m3, t3);
      && b.reply == AskClassroom
      && c == Turn(s, Session(Some(BookedIntent(s, j, t1))), ConfirmReservation(BookedIntent(s, j, t1)))
  {
    var p1 := a.session.pending.value;
    var p2 := p1.(level := Some(Secondary));
    var b := Step(a.store, a.session, user, m2, t2);
    StepSecundario(s, p1, user, m2, t2);
    assert b == Turn(s, Session(Some(p2)), AskClassroom);
    StepDash(s, p2, user, m3, t3);
    assert p2.(classroom := Some("")) == BookedIntent(s, j, t1);
  }

  /** The conversation "reservar NB-01", "Secundario", "-", "confirmo" by a
      user with no active reservation, on an available NB-01, creates exactly
      one "activa" reservation of that item for that user, at the level and
      shift the conversation settled, with no classroom, expiring at the next
      23:00; the item is Reserved and no loan is created. */
  lemma ChatBookingConversation(s: Store, user: User, j: ItemId, m1: string, m2: string, m3: string, m4: string,
                                t1: Time, t2: Time, t3: Time, t4: Time)
    requires Valid(s) && j < |s.items| && Lower(s.items[j].code) == "nb-01"
    requires forall k :: 0 <= k < j ==> Lower(s.items[k].code) != "nb-01"
    requires s.items[j].state == Available && !HasActiveReservation(s, user)
    requires m1 == "reservar NB-01" && m2 == "Secundario" && m3 == "-" && m4 == "confirmo"
    ensures var a := Step(s, Session(None), user, m1, t1);
      var b := Step(a.store, a.session, user, m2, t2);
      var c := Step(b.store, b.session, user, m3, t3);
      var d := Step(c.store, c.session, user, m4, t4);
      && a.reply == AskLevel("NB-01", InferShift(t1))
      && b.reply == AskClassroom
      && c.reply.ConfirmReservation?
      && d.reply == ReservationCreated(|s.reservations|, Expiry2300(t4))
      && d.session == Session(None)
      && d.store.reservations == s.reservations
           + [NewReservation(Some(j), s.items[j].kind, Secondary, InferShift(t1), "", user, "", t4, Expiry2300(t4))]
      && j < |d.store.items| && d.store.items[j].state == Reserved
      && d.store.loans == s.loans
  {
    ConversationOpening(s, user, j, m1, m2, m3, t1, t2, t3);
    var a := Step(s, Session(None), user, m1, t1);
    var b := Step(a.store, a.session, user, m2, t2);
    var c := Step(b.store, b.session, user, m3, t3);
    ConversationClosing(s, user, j, t1, c, m4, t4);
  }

  /** The fourth message, "confirmo", after the opening: the reservation is
      booked. */
  lemma ConversationClosing(s: Store, user: User, j: ItemId, t1: Time, c: Turn, m4: string, t4: Time)
    requires Valid(s) && j < |s.items|
    requires s.items[j].state == Available && !HasActiveReservation(s, user)
    requires c == Turn(s, Session(Some(BookedIntent(s, j, t1))), ConfirmReservation(BookedIntent(s, j, t1)))
    requires m4 == "confirmo"
    ensures var d := Step(c.store, c.session, user, m4, t4);
      && d.reply == ReservationCreated(|s.reservations|, Expiry2300(t4))
      && d.session == Session(None)
      && d.store.reservations == s.reservations
           + [NewReservation(Some(j), s.items[j].kind, Secondary, InferShift(t1), "", user, "", t4, Expiry2300(t4))]
      && j < |d.store.items| && d.store.items[j].state == Reserved
      && d.store.loans == s.loans
  {
    var p3 := BookedIntent(s, j, t1);
    StepConfirmo(s, p3, user, m4, t4);
    ConfirmReserveBooks(s, p3, user, t4);
  }

  /** A confirmation that passes every re-check books the intent. */
  lemma ConfirmReserveBooks(s: Store, p: Pending, user: User, now: Time)
    requires Valid(s) && p.ReserveIntent? && NextField(p) == Ready
    requires p.itemId < |s.items| && s.items[p.itemId].state == Available && !HasActiveReservation(s, user)
    ensures var t := ConfirmReserve(s, p, user, now);
      && t.reply == ReservationCreated(|s.reservations|, Expiry2300(now))
      && t.session == Session(None)
      && t.store.reservations == s.reservations
           + [NewReservation(Some(p.itemId), s.items[p.itemId].kind, p.level.value, p.shift, p.classroom.value,
                             user, "", now, Expiry2300(now))]
      && t.store.items[p.itemId].state == Reserved
      && (forall k :: 0 <= k < |s.items| && k != p.itemId ==> t.store.items[k] == s.items[k])
      && t.store.loans == s.loans
  {
  }

  /** Reserve then cancel is a round trip for the inventory: confirming a
      reservation and then sending "cancelar" cancels that very reservation
      and leaves every item as it was before. */
  lemma ReserveThenCancelRestores(s: Store, p: Pending, user: User, now: Time, raw: string, later: Time)
    requires Valid(s) && p.ReserveIntent? && NextField(p) == Ready
    requires p.itemId < |s.items| && s.items[p.itemId].state == Available && !HasActiveReservation(s, user)
    requires Norm(raw) == "cancelar"
    ensures var t := ConfirmReserve(s, p, user, now);
      var u := Step(t.store, t.session, user, raw, later);
      && u.reply == ReservationCancelled(|s.reservations|)
      && u.store.reservations[|s.reservations|].status == Cancelled
      && u.store.items == s.items
  {
    var t := ConfirmReserve(s, p, user, now);
    var n := |s.reservations|;
    assert t.store.reservations == s.reservations + [t.store.reservations[n]];
    assert IsActiveOf(t.store.reservations[n], user);
    BareCancelKeepsPending(t.store, t.session, user, raw, later);
    var u := Step(t.store, t.session, user, raw, later);
    assert u.reply.reservation == n;
    StepOnCancel(t.store, t.session, user, raw, later);
    assert u.store.items == s.items;
  }

  /** Two confirmations on the same item, one after the other: once the first
      has reserved it, the second is refused with the item's new state and
      changes nothing. */
  lemma SecondConfirmationRefused(s: Store, p: Pending, q: Pending, alice: User, bob: User, t1: Time, t2: Time)
    requires Valid(s) && p.ReserveIntent? && NextField(p) == Ready && q.ReserveIntent? && NextField(q) == Ready
    requires p.itemId == q.itemId && p.itemId < |s.items| && s.items[p.itemId].state == Available
    requires !HasActiveReservation(s, alice)
    ensures var a := ConfirmReserve(s, p, alice, t1);
      var b := ConfirmReserve(a.store, q, bob, t2);
      && a.reply.ReservationCreated?
      && b.reply == ItemChanged(Reserved)
      && b.store == a.store
  {
  }

  /** An overdue "activa" reservation holding a Reserved item: the sweep
      expires it and makes the item available again. */
  lemma SweepFreesOverdueHold(s: Store, now: Time, i: ReservationId, j: ItemId)
    requires Valid(s) && i < |s.reservations| && Due(s.reservations[i], now)
    requires s.reservations[i].item == Some(j) && s.items[j].state == Reserved
    ensures SweepSpec(s, now).reservations[i].status == Expired
    ensures SweepSpec(s, now).items[j].state == Available
  {
    assert EndedBySweep(s.reservations[i], now);
    assert ReleasedBySweep(s.reservations, j, now);
  }
}

=== FILE: sweeper.dfy ===
/** The `expire_reservas` management command: a periodic two-pass sweep that
    expires overdue reservations and, from 23:00 local time on, cancels every
    reservation still active. Notifications are fire-and-forget and omitted. */
module Sweeper {
  import opened Wrappers
  import opened Domain
  import opened Clock
  import opened Reservations

  const AutoCancelReason: string := "Auto-cancel 23:00"

  /** Pass 1 selects these: "activa" with `expira <= now`. */
  predicate Due(x: Reservation, now: Time) {
    x.status == Active && x.expires <= now
  }

  /** The closing-time rule of pass 2. */
  predicate ClosingTime(now: Time) {
    HourOf(now) >= 23
  }

  /** A reservation the sweep ends, by either pass. */
  predicate EndedBySweep(x: Reservation, now: Time) {
    x.status == Active && (x.expires <= now || ClosingTime(now))
  }

  /** What the sweep does to one reservation, stated independently of the
      order in which the passes visit the store. */
  function Swept(x: Reservation, now: Time): Reservation {
    if Due(x, now) then x.(status := Expired)
    else if EndedBySweep(x, now) then Cancelled23(x, now)
    else x
  }

  predicate ReleasedBySweep(rs: seq<Reservation>, j: ItemId, now: Time) {
    exists k :: 0 <= k < |rs| && EndedBySweep(rs[k], now) && rs[k].item == Some(j)
  }

  /** The reference result of a sweep: every reservation mapped by `Swept`, and
      an item made available exactly when it was Reserved and some reservation
      the sweep ends is bound to it. */
  function SweepSpec(s: Store, now: Time): (r: Store)
    requires Valid(s)
    ensures Valid(r)
  {
    var items := seq(|s.items|, j requires 0 <= j < |s.items| =>
      if s.items[j].state == Reserved && ReleasedBySweep(s.reservations, j, now)
      then s.items[j].(state := Available) else s.items[j]);
    var res := seq(|s.reservations|, i requires 0 <= i < |s.reservations| => Swept(s.reservations[i], now));
    assert forall i :: 0 <= i < |res| ==> res[i].item == s.reservations[i].item;
    assert forall j :: 0 <= j < |items| ==> items[j].code == s.items[j].code;
    Store(items, s.loans, res)
  }

  predicate ExpiredAmong(rs: seq<Reservation>, n: nat, j: ItemId, now: Time)
    requires n <= |rs|
  {
    exists k :: 0 <= k < n && Due(rs[k], now) && rs[k].item == Some(j)
  }

  predicate ActiveAmong(rs: seq<Reservation>, n: nat, j: ItemId)
    requires n <= |rs|
  {
    exists k :: 0 <= k < n && rs[k].status == Active && rs[k].item == Some(j)
  }

  /** What `cancelar(user=None, motivo="Auto-cancel 23:00")` records. */
  function Cancelled23(x: Reservation, now: Time): Reservation {
    x.(status := Cancelled, cancelledBy := None, cancelledAt := Some(now), cancelReason := AutoCancelReason)
  }

  /** Pass 1: `expirar` on every reservation that is "activa" with
      `expira <= now`, in id order. */
  method ExpirePass(s: Store, now: Time) returns (r: Store)
    requires Valid(s)
    ensures Valid(r)
    ensures r.loans == s.loans && |r.items| == |s.items| && |r.reservations| == |s.reservations|
    ensures forall k :: 0 <= k < |s.reservations| ==>
      r.reservations[k] == (if Due(s.reservations[k], now) then s.reservations[k].(status := Expired) else s.reservations[k])
    ensures forall j :: 0 <= j < |s.items| ==>
      r.items[j] == (if s.items[j].state == Reserved && ExpiredAmong(s.reservations, |s.reservations|, j, now)
                     then s.items[j].(state := Available) else s.items[j])
  {
    var n := |s.reservations|;
    r := s;
    var i := 0;
    while i < n
      invariant 0 <= i <= n
      invariant Valid(r)
      invariant r.loans == s.loans && |r.items| == |s.items| && |r.reservations| == n
      invariant forall k :: 0 <= k < n ==>
        r.reservations[k] == (if k < i && Due(s.reservations[k], now)
                              then s.reservations[k].(status := Expired) else s.reservations[k])
      invariant forall j :: 0 <= j < |s.items| ==>
        r.items[j] == (if s.items[j].state == Reserved && ExpiredAmong(s.reservations, i, j, now)
                       then s.items[j].(state := Available) else s.items[j])
    {
      if r.reservations[i].status == Active && r.reservations[i].expires <= now {
        r := Expire(r, i);
      }
      i := i + 1;
    }
  }

  /** Pass 2: `cancelar(user=None, motivo="Auto-cancel 23:00")` on every
      reservation still "activa", in id order. */
  method CancelPass(s: Store, now: Time) returns (r: Store)
    requires Valid(s)
    ensures Valid(r)
    ensures r.loans == s.loans && |r.items| == |s.items| && |r.reservations| == |s.reservations|
    ensures forall k :: 0 <= k < |s.reservations| ==>
      r.reservations[k] == (if s.reservations[k].status == Active then Cancelled23(s.reservations[k], now) else s.reservations[k])
    ensures forall j :: 0 <= j < |s.items| ==>
      r.items[j] == (if s.items[j].state == Reserved && ActiveAmong(s.reservations, |s.reservations|, j)
                     then s.items[j].(state := Available) else s.items[j])
  {
    var n := |s.reservations|;
    r := s;
    var i := 0;
    while i < n
      invariant 0 <= i <= n
      invariant Valid(r)
      invariant r.loans == s.loans && |r.items| == |s.items| && |r.reservations| == n
      invariant forall k :: 0 <= k < n ==>
        r.reservations[k] == (if k < i && s.reservations[k].status == Active
                              then Cancelled23(s.reservations[k], now) else s.reservations[k])
      invariant forall j :: 0 <= j < |s.items| ==>
        r.items[j] == (if s.items[j].state == Reserved && ActiveAmong(s.reservations, i, j)
                       then s.items[j].(state := Available) else s.items[j])
    {
      if r.reservations[i].status == Active {
        r := Cancel(r, i, None, AutoCancelReason, now);
      }
      i := i + 1;
    }
  }

  /** `Command.handle`: pass 1, then pass 2 when the clock reads 23:00 or
      later. The result is the reference sweep. */
  method Sweep(s: Store, now: Time) returns (r: Store)
    requires Valid(s)
    ensures r == SweepSpec(s, now)
    ensures r.loans == s.loans && |r.reservations| == |s.reservations|
    ensures forall i :: 0 <= i < |s.reservations| && Due(s.reservations[i], now) ==>
              r.reservations[i].status == Expired
    ensures ClosingTime(now) ==> forall i :: 0 <= i < |s.reservations| ==> r.reservations[i].status != Active
    ensures forall i :: 0 <= i < |s.reservations| && s.reservations[i].status != Active ==>
              r.reservations[i] == s.reservations[i]
  {
    SweepSpecEffects(s, now);
    var s1 := ExpirePass(s, now);
    if ClosingTime(now) {
      r := CancelPass(s1, now);
      PassesMatchSpec(s, s1, r, now);
    } else {
      r := s1;
      PassOneMatchesSpec(s, r, now);
    }
  }

  /** What the reference sweep does: loans untouched, every due reservation
      expired, nothing left "activa" from 23:00 on (the rest cancelled with
      no canceller and the auto-cancel reason), nothing touched before 23:00
      that is not yet due, terminal reservations untouched, and an item
      changed only from Reservado to Disponible. */
  lemma SweepSpecEffects(s: Store, now: Time)
    requires Valid(s)
    ensures var r := SweepSpec(s, now);
      && |r.reservations| == |s.reservations| && |r.items| == |s.items| && r.loans == s.loans
      && (forall i :: 0 <= i < |s.reservations| && Due(s.reservations[i], now) ==>
            r.reservations[i].status == Expired)
      && (ClosingTime(now) ==> forall i :: 0 <= i < |s.reservations| ==> r.reservations[i].status != Active)
      && (forall i :: (0 <= i < |s.reservations| && s.reservations[i].status == Active
                       && !Due(s.reservations[i], now) && ClosingTime(now)) ==>
            r.reservations[i].status == Cancelled && r.reservations[i].cancelReason == AutoCancelReason
            && r.reservations[i].cancelledBy.None?)
      && (!ClosingTime(now) ==> forall i :: 0 <= i < |s.reservations| && s.reservations[i].expires > now ==>
            r.reservations[i] == s.reservations[i])
      && (forall i :: 0 <= i < |s.reservations| && s.reservations[i].status != Active ==>
            r.reservations[i] == s.reservations[i])
      && (forall j :: 0 <= j < |s.items| && r.items[j] != s.items[j] ==>
            s.items[j].state == Reserved && r.items[j] == s.items[j].(state := Available))
  {
  }

  /** Before 23:00 the expiry pass alone is the whole sweep. */
  lemma PassOneMatchesSpec(s: Store, s1: Store, now: Time)
    requires Valid(s) && !ClosingTime(now)
    requires s1.loans == s.loans && |s1.items| == |s.items| && |s1.reservations| == |s.reservations|
    requires forall k :: 0 <= k < |s.reservations| ==>
      s1.reservations[k] == (if Due(s.reservations[k], now) then s.reservations[k].(status := Expired) else s.reservations[k])
    requires forall j :: 0 <= j < |s.items| ==>
      s1.items[j] == (if s.items[j].state == Reserved && ExpiredAmong(s.reservations, |s.reservations|, j, now)
                      then s.items[j].(state := Available) else s.items[j])
    ensures s1 == SweepSpec(s, now)
  {
    var spec := SweepSpec(s, now);
    forall j | 0 <= j < |s.items|
      ensures s1.items[j] == spec.items[j]
    {
      if ExpiredAmong(s.reservations, |s.reservations|, j, now) {
        var k :| 0 <= k < |s.reservations| && Due(s.reservations[k], now) && s.reservations[k].item == Some(j);
        assert EndedBySweep(s.reservations[k], now);
      }
      if ReleasedBySweep(s.reservations, j, now) {
        var k :| 0 <= k < |s.reservations| && EndedBySweep(s.reservations[k], now) && s.reservations[k].item == Some(j);
        assert Due(s.reservations[k], now);
      }
    }
    assert s1.items == spec.items;
    assert s1.reservations == spec.reservations;
  }

  /** From 23:00 on, the expiry pass followed by the cancel pass is the whole sweep. */
  lemma PassesMatchSpec(s: Store, s1: Store, s2: Store, now: Time)
    requires Valid(s) && ClosingTime(now)
    requires s1.loans == s.loans && |s1.items| == |s.items| && |s1.reservations| == |s.reservations|
    requires forall k :: 0 <= k < |s.reservations| ==>
      s1.reservations[k] == (if Due(s.reservations[k], now) then s.reservations[k].(status := Expired) else s.reservations[k])
    requires forall j :: 0 <= j < |s.items| ==>
      s1.items[j] == (if s.items[j].state == Reserved && ExpiredAmong(s.reservations, |s.reservations|, j, now)
                      then s.items[j].(state := Available) else s.items[j])
    requires s2.loans == s.loans && |s2.items| == |s.items| && |s2.reservations| == |s.reservations|
    requires forall k :: 0 <= k < |s.reservations| ==>
      s2.reservations[k] == (if s1.reservations[k].status == Active then Cancelled23(s1.reservations[k], now) else s1.reservations[k])
    requires forall j :: 0 <= j < |s.items| ==>
      s2.items[j] == (if s1.items[j].state == Reserved && ActiveAmong(s1.reservations, |s.reservations|, j)
                      then s1.items[j].(state := Available) else s1.items[j])
    ensures s2 == SweepSpec(s, now)
  {
    var spec := SweepSpec(s, now);
    var n := |s.reservations|;
    forall j | 0 <= j < |s.items|
      ensures s2.items[j] == spec.items[j]
    {
      var released := ReleasedBySweep(s.reservations, j, now);
      if released {
        var k :| 0 <= k < n && EndedBySweep(s.reservations[k], now) && s.reservations[k].item == Some(j);
        if !Due(s.reservations[k], now) {
          assert s1.reservations[k] == s.reservations[k];
          assert s1.items[j].state == Reserved ==> ActiveAmong(s1.reservations, n, j);
        } else {
          assert ExpiredAmong(s.reservations, n, j, now);
        }
      } else {
        if ExpiredAmong(s.reservations, n, j, now) {
          var k :| 0 <= k < n && Due(s.reservations[k], now) && s.reservations[k].item == Some(j);
          assert EndedBySweep(s.reservations[k], now);
        }
      }
    }
    assert s2.items == spec.items;
    assert s2.reservations == spec.reservations;
  }

  /** Running the sweep twice with the same clock gives the same store as running it once. */
  lemma {:induction false} SweepIdempotent(s: Store, now: Time)
    requires Valid(s)
    ensures SweepSpec(SweepSpec(s, now), now) == SweepSpec(s, now)
  {
    var s1 := SweepSpec(s, now);
    var s2 := SweepSpec(s1, now);
    forall i | 0 <= i < |s1.reservations|
      ensures !EndedBySweep(s1.reservations[i], now)
    {
    }
    forall j | 0 <= j < |s1.items|
      ensures s2.items[j] == s1.items[j]
    {
      assert !ReleasedBySweep(s1.reservations, j, now);
    }
    assert s2.items == s1.items;
    assert s2.reservations == s1.reservations;
  }
}

=== FILE: system.dfy ===
/** The whole system as a sequence of write operations from every entry
    point (chat, sweeper, counter, web forms, Discord bot) applied to one
    store, and the invariants that hold along any such sequence. */
module System {
  import opened Text
  import opened Wrappers
  import opened Domain
  import opened Clock
  import opened Queries
  import opened Loans
  import opened Reservations
  import opened Sweeper
  import opened ChatText
  import opened Chat
  import opened ChatProps
  import opened Forms
  import opened Bot
  import opened Invariants

  const CounterCancelReason: string := "Cancelada en mostrador"

  /** One write to the store. A chat message carries the session it arrives
      with, which may hold any pending intent. */
  datatype Op =
    | ChatMessage(session: Session, user: User, raw: string, now: Time)
    | SweepAt(now: Time)
    | CounterApprove(reservation: ReservationId, operator: User, now: Time)
    | CounterCancel(reservation: ReservationId, operator: User, now: Time)
    | QuickLoanForm(form: QuickLoanInput, user: User, now: Time)
    | ReturnForm(typed: string, now: Time)
    | BotReserve(profile: BotProfile, kind: ItemKind, minutes: int, classroom: string, callerId: string, now: Time)
    | BotLend(code: string, profile: BotProfile, classroom: string, now: Time)
    | BotHandOver(code: string, now: Time)

  /** The store after one operation. An id that names no reservation, a form
      that does not validate, or a minute count outside the command's range
      leaves the store as it is. */
  function Apply(s: Store, op: Op): (r: Store)
    requires Valid(s)
    ensures Valid(r)
  {
    match op
    case ChatMessage(st, user, raw, now) => Step(s, st, user, raw, now).store
    case SweepAt(now) => SweepSpec(s, now)
    case CounterApprove(id, operator, now) =>
      if id < |s.reservations| then ApproveAndConvert(s, id, operator, now).0 else s
    case CounterCancel(id, operator, now) =>
      if id < |s.reservations| then Cancel(s, id, Some(operator), CounterCancelReason, now) else s
    case QuickLoanForm(f, user, now) => QuickLoanView(s, f, user, now)
    case ReturnForm(typed, now) =>
      (match ReturnCodeField(typed)
       case Failure(_) => s
       case Success(code) =>
         match ReturnClean(s, code)
         case Failure(_) => s
         case Success(id) => ReturnSave(s, code, id, now))
    case BotReserve(p, kind, minutes, classroom, callerId, now) =>
      if 5 <= minutes <= 180 then ReserveCommand(s, p, kind, minutes, classroom, callerId, now).0 else s
    case BotLend(code, p, classroom, now) => StartLoan(s, code, p, GuessShift(p.level, now), classroom, now).0
    case BotHandOver(code, now) => HandOver(s, code, now).0
  }

  /** The quick-loan page: the form is validated and saved, and the loan's
      requester is then overwritten with the logged-in user. The page's own
      Superior-means-night correction is already done by `Prestamo.save`. */
  function QuickLoanView(s: Store, f: QuickLoanInput, user: User, now: Time): (r: Store)
    requires Valid(s)
    ensures Valid(r)
  {
    var f' := f.(requester := user);
    match QuickLoanClean(s, f')
    case Failure(_) => s
    case Success(j) => QuickLoanSave(s, f', j, now).0
  }

  /** A quick loan accepted by the page is recorded under the logged-in user,
      whatever name the form carried, and in the night shift for Superior. */
  lemma QuickLoanViewRecordsUser(s: Store, f: QuickLoanInput, user: User, now: Time)
    requires Valid(s) && QuickLoanClean(s, f).Success?
    ensures var r := QuickLoanView(s, f, user, now);
      && |r.loans| == |s.loans| + 1
      && r.loans[|s.loans|].requester == user
      && r.loans[|s.loans|].item == QuickLoanClean(s, f).value
      && (f.level == Higher ==> r.loans[|s.loans|].shift == Night)
      && (f.level != Higher ==> r.loans[|s.loans|].shift == f.shift)
  {
    assert QuickLoanClean(s, f.(requester := user)) == QuickLoanClean(s, f);
  }

  /** The store after a sequence of operations, applied in order. */
  function Run(s: Store, ops: seq<Op>): (r: Store)
    requires Valid(s)
    ensures Valid(r)
    decreases |ops|
  {
    if ops == [] then s else Run(Apply(s, ops[0]), ops[1..])
  }

  lemma SweepKeeps(s: Store, now: Time)
    requires Inv(s)
    ensures Inv(SweepSpec(s, now)) && Evolves(s, SweepSpec(s, now))
  {
    var r := SweepSpec(s, now);
    assert forall i :: 0 <= i < |r.reservations| ==> r.reservations[i] == Swept(s.reservations[i], now);
    assert forall j :: 0 <= j < |r.items| ==> r.items[j].state == InUse ==> s.items[j].state == InUse;
    assert forall j :: 0 <= j < |r.items| && s.items[j].state == InUse ==> r.items[j] == s.items[j];
  }

  lemma ConfirmReserveKeeps(s: Store, p: Pending, user: User, now: Time)
    requires Inv(s) && p.ReserveIntent? && NextField(p) == Ready
    ensures Inv(ConfirmReserve(s, p, user, now).store) && Evolves(s, ConfirmReserve(s, p, user, now).store)
  {
    if p.itemId < |s.items| && s.items[p.itemId].state == Available && !HasActiveReservation(s, user) {
      var x := NewReservation(Some(p.itemId), s.items[p.itemId].kind, p.level.value, p.shift,
                              p.classroom.value, user, "", now, Expiry2300(now));
      NewReservationKeeps(s, x, p.itemId);
    }
  }

  /** A chat message keeps the invariant, whatever session it arrives with. */
  lemma StepKeeps(s: Store, st: Session, user: User, raw: string, now: Time)
    requires Inv(s)
    ensures Inv(Step(s, st, user, raw, now).store) && Evolves(s, Step(s, st, user, raw, now).store)
  {
    var t := Step(s, st, user, raw, now);
    if t.store != s {
      StoreChangesOnlyOnCancelOrConfirm(s, st, user, raw, now);
      var route := RouteOf(Norm(raw), st.pending);
      if route == ToCancelReservation {
        StepOnCancel(s, st, user, raw, now);
        CancelKeeps(s, FirstActiveReservationOf(s, user).value, Some(user), ChatCancelReason, now);
      } else if st.pending.value.ReserveIntent? {
        StepOnConfirmReserve(s, st, user, raw, now);
        ConfirmReserveKeeps(s, st.pending.value, user, now);
      } else {
        StepOnConfirmReturn(s, st, user, raw, now);
        var id := st.pending.value.loanId;
        CloseKeeps(s, id, now);
      }
    }
  }

  lemma StartLoanKeeps(s: Store, code: string, p: BotProfile, shift: Shift, classroom: string, now: Time)
    requires Inv(s)
    ensures Inv(StartLoan(s, code, p, shift, classroom, now).0) && Evolves(s, StartLoan(s, code, p, shift, classroom, now).0)
  {
    var r := StartLoan(s, code, p, shift, classroom, now);
    if r.1.Lent? {
      var j := ItemByCode(s, code).value;
      var res := LatestActiveReservationOn(s, j);
      var s1 := if res.Some?
                then s.(reservations := s.reservations[res.value := s.reservations[res.value].(status := Converted)])
                else s;
      if res.Some? {
        ActiveReplacedKeeps(s, res.value, s.reservations[res.value].(status := Converted));
      }
      var l := OpenLoan(j, p.level, p.career, p.year, shift, classroom, RequesterName(p), now);
      NewLoanKeeps(s1, l);
      assert r.0 == WithItemState(CreateLoan(s1, l).0, j, InUse);
      EvolvesTransitive(s, s1, r.0);
    }
  }

  lemma ReserveFirstAvailableKeeps(s: Store, kind: ItemKind, level: Level, shift: Shift, classroom: string,
                                   requester: string, discordId: string, now: Time, expires: Time)
    requires Inv(s)
    ensures var r := ReserveFirstAvailable(s, kind, level, shift, classroom, requester, discordId, now, expires).0;
      Inv(r) && Evolves(s, r)
  {
    var r := ReserveFirstAvailable(s, kind, level, shift, classroom, requester, discordId, now, expires);
    if r.1.Some? {
      var j := r.1.value;
      var x := NewReservation(Some(j), kind, level, shift, classroom, requester, discordId, now, expires);
      NewReservationKeeps(s, x, j);
      assert r.0 == WithItemState(s.(reservations := s.reservations + [x]), j, Reserved);
    }
  }

  lemma ChatMessageKeeps(s: Store, op: Op)
    requires Inv(s) && op.ChatMessage?
    ensures Inv(Apply(s, op)) && Evolves(s, Apply(s, op))
  {
    StepKeeps(s, op.session, op.user, op.raw, op.now);
  }

  lemma CounterKeeps(s: Store, op: Op)
    requires Inv(s) && (op.CounterApprove? || op.CounterCancel?)
    ensures Inv(Apply(s, op)) && Evolves(s, Apply(s, op))
  {
    if op.reservation >= |s.reservations| {
      EvolvesReflexive(s);
    } else if op.CounterApprove? {
      ApproveKeeps(s, op.reservation, op.operator, op.now);
    } else {
      CancelKeeps(s, op.reservation, Some(op.operator), CounterCancelReason, op.now);
    }
  }

  /** The return page reads the code the way the form field cleans it: blanks
      typed around a code change nothing. */
  lemma ReturnPageIgnoresPadding(s: Store, pad: string, c: string, now: Time)
    requires Valid(s)
    requires forall k :: 0 <= k < |pad| ==> IsSpace(pad[k])
    requires c != "" && |c| <= 10 && !IsSpace(c[0]) && !IsSpace(c[|c| - 1])
    ensures Apply(s, ReturnForm(pad + c + pad, now)) == Apply(s, ReturnForm(c, now))
  {
    ReturnCodeFieldAcceptsPadded(pad, c);
  }

  lemma FormKeeps(s: Store, op: Op)
    requires Inv(s) && (op.QuickLoanForm? || op.ReturnForm?)
    ensures Inv(Apply(s, op)) && Evolves(s, Apply(s, op))
  {
    if op.QuickLoanForm? {
      var f := op.form.(requester := op.user);
      if QuickLoanClean(s, f).Success? {
        var j := QuickLoanClean(s, f).value;
        NewLoanKeeps(s, OpenLoan(j, f.level, f.career, f.year, f.shift, f.classroom, f.requester, op.now));
      } else {
        EvolvesReflexive(s);
      }
    } else {
      var field := ReturnCodeField(op.typed);
      if field.Success? && ReturnClean(s, field.value).Success? {
        CloseKeeps(s, ReturnClean(s, field.value).value, op.now);
      } else {
        EvolvesReflexive(s);
      }
    }
  }

  lemma ReserveCommandKeeps(s: Store, p: BotProfile, kind: ItemKind, minutes: int, classroom: string,
                            callerId: string, now: Time)
    requires Inv(s) && 5 <= minutes <= 180
    ensures var r := ReserveCommand(s, p, kind, minutes, classroom, callerId, now).0;
      Inv(r) && Evolves(s, r)
  {
    var id := if p.discordId != "" then p.discordId else callerId;
    ReserveFirstAvailableKeeps(s, kind, p.level, GuessShift(p.level, now), classroom, RequesterName(p),
                               id, now, now + minutes * 60);
  }

  lemma BotReserveKeeps(s: Store, op: Op)
    requires Inv(s) && op.BotReserve?
    ensures Inv(Apply(s, op)) && Evolves(s, Apply(s, op))
  {
    if 5 <= op.minutes <= 180 {
      ReserveCommandKeeps(s, op.profile, op.kind, op.minutes, op.classroom, op.callerId, op.now);
    } else {
      EvolvesReflexive(s);
    }
  }

  lemma BotLendKeeps(s: Store, op: Op)
    requires Inv(s) && op.BotLend?
    ensures Inv(Apply(s, op)) && Evolves(s, Apply(s, op))
  {
    StartLoanKeeps(s, op.code, op.profile, GuessShift(op.profile.level, op.now), op.classroom, op.now);
  }

  lemma BotHandOverKeeps(s: Store, op: Op)
    requires Inv(s) && op.BotHandOver?
    ensures Inv(Apply(s, op)) && Evolves(s, Apply(s, op))
  {
    if LatestOpenLoanFor(s, op.code).Some? {
      CloseKeeps(s, LatestOpenLoanFor(s, op.code).value, op.now);
    } else {
      EvolvesReflexive(s);
    }
  }

  /** Every single operation keeps the invariant and respects the frame. */
  lemma ApplyKeeps(s: Store, op: Op)
    requires Inv(s)
    ensures Inv(Apply(s, op)) && Evolves(s, Apply(s, op))
  {
    if op.ChatMessage? {
      ChatMessageKeeps(s, op);
    } else if op.SweepAt? {
      SweepKeeps(s, op.now);
    } else if op.CounterApprove? || op.CounterCancel? {
      CounterKeeps(s, op);
    } else if op.QuickLoanForm? || op.ReturnForm? {
      FormKeeps(s, op);
    } else if op.BotReserve? {
      BotReserveKeeps(s, op);
    } else if op.BotLend? {
      BotLendKeeps(s, op);
    } else {
      BotHandOverKeeps(s, op);
    }
  }

  /** Along any sequence of operations from every entry point: each open loan
      holds its item in use and no item is lent twice at once, every loan and
      reservation record stays well formed, and returned loans and terminal
      reservations are never changed again. */
  lemma {:induction false} RunKeeps(s: Store, ops: seq<Op>)
    requires Inv(s)
    ensures Inv(Run(s, ops)) && Evolves(s, Run(s, ops))
    decreases |ops|
  {
    if ops == [] {
      EvolvesReflexive(s);
    } else {
      var s1 := Apply(s, ops[0]);
      ApplyKeeps(s, ops[0]);
      RunKeeps(s1, ops[1..]);
      EvolvesTransitive(s, s1, Run(s1, ops[1..]));
    }
  }

  /** A user never holds two "activa" reservations made through the chat:
      a chat message keeps this for every user. */
  predicate AtMostOneActive(s: Store, u: User) {
    forall i, k :: 0 <= i < k < |s.reservations| && IsActiveOf(s.reservations[i], u) ==>
      !IsActiveOf(s.reservations[k], u)
  }

  lemma ConfirmReserveKeepsOne(s: Store, p: Pending, user: User, now: Time, u: User)
    requires Valid(s) && p.ReserveIntent? && NextField(p) == Ready && AtMostOneActive(s, u)
    ensures AtMostOneActive(ConfirmReserve(s, p, user, now).store, u)
  {
    var r := ConfirmReserve(s, p, user, now).store;
    if r != s {
      var n := |s.reservations|;
      assert r.reservations == s.reservations + [r.reservations[n]];
      assert !HasActiveReservation(s, user);
    }
  }

  /** Cancelling never makes a reservation active. */
  lemma CancelKeepsOne(s: Store, id: ReservationId, canceller: Option<User>, reason: string, now: Time, u: User)
    requires Valid(s) && id < |s.reservations| && AtMostOneActive(s, u)
    ensures AtMostOneActive(Cancel(s, id, canceller, reason, now), u)
  {
    var r := Cancel(s, id, canceller, reason, now);
    assert forall k :: 0 <= k < |r.reservations| && IsActiveOf(r.reservations[k], u) ==> IsActiveOf(s.reservations[k], u);
  }

  lemma CancelRungKeepsOne(s: Store, st: Session, user: User, raw: string, now: Time, u: User)
    requires Valid(s) && AtMostOneActive(s, u) && RouteOf(Norm(raw), st.pending) == ToCancelReservation
    ensures AtMostOneActive(Step(s, st, user, raw, now).store, u)
  {
    if HasActiveReservation(s, user) {
      StepOnCancel(s, st, user, raw, now);
      CancelKeepsOne(s, FirstActiveReservationOf(s, user).value, Some(user), ChatCancelReason, now, u);
    }
  }

  lemma ConfirmRungKeepsOne(s: Store, st: Session, user: User, raw: string, now: Time, u: User)
    requires Valid(s) && AtMostOneActive(s, u) && RouteOf(Norm(raw), st.pending) == ToConfirm
    ensures AtMostOneActive(Step(s, st, user, raw, now).store, u)
  {
    if st.pending.value.ReturnIntent? {
      StepOnConfirmReturn(s, st, user, raw, now);
    } else {
      StepOnConfirmReserve(s, st, user, raw, now);
      ConfirmReserveKeepsOne(s, st.pending.value, user, now, u);
    }
  }

  /** The chat never gives a user a second "activa" reservation: the one
      write that adds one re-checks that the user has none. */
  lemma ChatKeepsOneActivePerUser(s: Store, st: Session, user: User, raw: string, now: Time, u: User)
    requires Valid(s) && AtMostOneActive(s, u)
    ensures AtMostOneActive(Step(s, st, user, raw, now).store, u)
  {
    var route := RouteOf(Norm(raw), st.pending);
    if route == ToCancelReservation {
      CancelRungKeepsOne(s, st, user, raw, now, u);
    } else if route == ToConfirm {
      ConfirmRungKeepsOne(s, st, user, raw, now, u);
    } else {
      StoreKeptOffCancelAndConfirm(s, st, user, raw, now);
    }
  }

  /** The bot does not enforce one reservation per user: a second
      `/reservar` by the same profile adds a second active reservation. */
  lemma BotAllowsSecondActive(s: Store, p: BotProfile, kind: ItemKind, callerId: string, now: Time)
    requires Valid(s) && p.level == Secondary && p.fullName != ""
    requires HasActiveReservation(s, p.fullName)
    requires exists j :: 0 <= j < |s.items| && IsAvailableOfKind(s.items[j], kind)
    ensures !AtMostOneActive(ReserveCommand(s, p, kind, 20, "", callerId, now).0, p.fullName)
  {
    var r := ReserveCommand(s, p, kind, 20, "", callerId, now).0;
    var i :| 0 <= i < |s.reservations| && IsActiveOf(s.reservations[i], p.fullName);
    assert r.reservations[i] == s.reservations[i];
    assert IsActiveOf(r.reservations[|s.reservations|], p.fullName);
  }
}

=== FILE: text.dfy ===
/** String helpers with the meaning Python's `str` methods have: `strip` and
    `isspace` over every character Python counts as whitespace; `lower` and
    `upper` on ASCII letters; `startswith`, the `in` operator and `replace`. */
module Text {

  /** Python's `str.isspace`, which is also what `\s` matches in a `str`
      pattern: tab, line feed, vertical tab, form feed, carriage return, the
      separators 0x1C-0x1F, space, next line (0x85), no-break space (0xA0),
      the Ogham space mark, the spaces 0x2000-0x200A, the line and paragraph
      separators, the narrow no-break space, the medium mathematical space and
      the ideographic space. */
  predicate IsSpace(c: char) {
    var n := c as int;
    c == ' ' || 9 <= n <= 13 || 28 <= n <= 31 || n == 0x85 || n == 0xA0
    || n == 0x1680 || 0x2000 <= n <= 0x200A || n == 0x2028 || n == 0x2029
    || n == 0x202F || n == 0x205F || n == 0x3000
  }

  function LowerChar(c: char): char {
    if 'A' <= c <= 'Z' then (c as int + 32) as char else c
  }

  function UpperChar(c: char): char {
    if 'a' <= c <= 'z' then (c as int - 32) as char else c
  }

  function Lower(s: string): (r: string)
    ensures |r| == |s|
    ensures forall i :: 0 <= i < |s| ==> r[i] == LowerChar(s[i])
  {
    seq(|s|, i requires 0 <= i < |s| => LowerChar(s[i]))
  }

  function Upper(s: string): (r: string)
    ensures |r| == |s|
    ensures forall i :: 0 <= i < |s| ==> r[i] == UpperChar(s[i])
  {
    seq(|s|, i requires 0 <= i < |s| => UpperChar(s[i]))
  }

  /** Drops leading white space. */
  function TrimStart(s: string): (r: string)
    ensures |r| <= |s|
    ensures |r| > 0 ==> !IsSpace(r[0])
    decreases |s|
  {
    if |s| > 0 && IsSpace(s[0]) then TrimStart(s[1..]) else s
  }

  /** Drops trailing white space. */
  function TrimEnd(s: string): (r: string)
    ensures |r| <= |s| && r == s[..|r|]
    ensures |r| > 0 ==> !IsSpace(r[|r| - 1])
    ensures forall i :: |r| <= i < |s| ==> IsSpace(s[i])
    decreases |s|
  {
    if |s| > 0 && IsSpace(s[|s| - 1]) then TrimEnd(s[..|s| - 1]) else s
  }

  /** Python's `s.strip()`: the longest infix with no white space at either end. */
  function Strip(s: string): (r: string)
    ensures |r| > 0 ==> !IsSpace(r[0]) && !IsSpace(r[|r| - 1])
  {
    TrimEnd(TrimStart(s))
  }

  /** `lstrip()` keeps a suffix, */
  lemma {:induction false} TrimStartSuffix(s: string)
    ensures TrimStart(s) == s[|s| - |TrimStart(s)|..]
    decreases |s|
  {
    if |s| > 0 && IsSpace(s[0]) {
      TrimStartSuffix(s[1..]);
    }
  }

  /** so every character `strip()` keeps is one of the input's, at the offset
      of the leading blanks. */
  lemma StripInfix(s: string)
    ensures forall i :: 0 <= i < |Strip(s)| ==> |s| - |TrimStart(s)| + i < |s| && Strip(s)[i] == s[|s| - |TrimStart(s)| + i]
  {
    var t := TrimStart(s);
    var off := |s| - |t|;
    TrimStartSuffix(s);
    var r := TrimEnd(t);
    assert r == Strip(s) && r == t[..|r|];
    forall i | 0 <= i < |r|
      ensures off + i < |s| && r[i] == s[off + i]
    {
      assert r[i] == t[i] == s[off..][i];
    }
  }

  /** A string with no white space at either end is its own `strip()`. */
  lemma StripNoBlanks(s: string)
    requires |s| > 0 ==> !IsSpace(s[0]) && !IsSpace(s[|s| - 1])
    ensures Strip(s) == s
  {
    assert TrimStart(s) == s;
  }

  predicate StartsWith(s: string, prefix: string) {
    |prefix| <= |s| && s[..|prefix|] == prefix
  }

  /** Python's `sub in s`. */
  predicate Contains(s: string, sub: string)
    decreases |s|
  {
    StartsWith(s, sub) || (|s| > 0 && Contains(s[1..], sub))
  }

  /** Python's `s.replace(pat, "")`: every non-overlapping occurrence of `pat`,
      scanning left to right, removed. */
  function RemoveAll(s: string, pat: string): (r: string)
    requires |pat| > 0
    ensures |r| <= |s|
    decreases |s|
  {
    if |s| < |pat| then s
    else if StartsWith(s, pat) then RemoveAll(s[|pat|..], pat)
    else [s[0]] + RemoveAll(s[1..], pat)
  }

  /** A string in which `pat` never occurs is left as it is. */
  lemma {:induction false} RemoveAllAbsent(s: string, pat: string)
    requires |pat| > 0
    requires !Contains(s, pat)
    ensures RemoveAll(s, pat) == s
    decreases |s|
  {
    if |s| >= |pat| {
      RemoveAllAbsent(s[1..], pat);
      assert [s[0]] + s[1..] == s;
    }
  }

  /** Lower-casing twice is lower-casing once. */
  lemma LowerIdempotent(s: string)
    ensures Lower(Lower(s)) == Lower(s)
  {
  }

  /** Code-unit order, the order SQL's `ORDER BY` gives ASCII item codes. */
  predicate LexLess(a: string, b: string)
    decreases |a|
  {
    |b| > 0 && (|a| == 0 || a[0] < b[0] || (a[0] == b[0] && LexLess(a[1..], b[1..])))
  }

  predicate LexLe(a: string, b: string) {
    a == b || LexLess(a, b)
  }

  lemma {:induction false} LexLessIrreflexive(a: string)
    ensures !LexLess(a, a)
    decreases |a|
  {
    if |a| > 0 {
      LexLessIrreflexive(a[1..]);
    }
  }

  lemma {:induction false} LexLessTransitive(a: string, b: string, c: string)
    requires LexLess(a, b) && LexLess(b, c)
    ensures LexLess(a, c)
    decreases |a|
  {
    if |a| > 0 && a[0] == b[0] && b[0] == c[0] {
      LexLessTransitive(a[1..], b[1..], c[1..]);
    }
  }

  lemma {:induction false} LexLessTotal(a: string, b: string)
    requires a != b
    ensures LexLess(a, b) || LexLess(b, a)
    decreases |a|
  {
    if |a| > 0 && |b| > 0 && a[0] == b[0] {
      assert a == [a[0]] + a[1..] && b == [b[0]] + b[1..];
      LexLessTotal(a[1..], b[1..]);
    }
  }
}

=== FILE: wrappers.dfy ===
/** Failure-compatible helper datatypes shared by every module of the model. */
module Wrappers {

  /** A value that may be absent: the model's stand-in for a nullable column or a `None` return. */
  datatype Option<+T> = None | Some(value: T)

  /** Either a value or the validation error that refused it. */
  datatype Result<+R, +E> = Success(value: R) | Failure(error: E)
}
